=== FILE: README.md ===
# Missing-Unicode repair for embedded PDF fonts, in Dafny

This project models the core of a tool that repairs embedded PDF fonts whose
glyphs have no usable Unicode mapping. The tool works in three phases:

1. **Scan.** It walks every page, every text object whose font is embedded,
   and every character. A character whose decoded text is empty, U+FFFE or
   U+FEFF is a *missing glyph*. Its location (page index and bounding box)
   is recorded under a dictionary key built from the font name and the char
   code.
2. **Resolve.** For each missing glyph, in dictionary order, the locations
   are sorted by glyph height, tallest first. At most five of them are
   examined, and the box of each is grown by two units. The page is
   rendered once and the render is cached. The crop is read by the
   configured OCR engine (Tesseract, Rapid or Easy). The most frequent
   non-empty answer wins; a tie goes to the answer seen first. The default
   character is used when nothing was read. The result is written back with
   `SetUnicodeForCharcode`.
3. **Clean up.** Every cached page render is removed.

The OCR engines, the PDF SDK and the file system are not modelled. They
enter as data: a document value, an environment of stub functions, and
abstract temporary paths.

Modules, in dependency order:

- `Wrappers`: `Option`.
- `Geometry`: bounding boxes, glyph height and the box expansion.
- `MaxBy`: Python's `max(xs, key=f)`, which returns the first maximal
  element, and occurrence counts.
- `Ocr`: post-processing of each engine's raw output, with Python
  exceptions modelled as values.
- `Glyphs`: the "needs OCR" test, dictionary keys, and the ordered
  dictionary of missing glyphs.
- `Scanner`: the scan loop as written, plus a flat list of flagged
  occurrences as its reference definition.
- `HeightOrder`: a stable sort by height, tallest first.
- `RenderCache`: the page-render cache and its clean-up.
- `Resolver`: sampling, voting, engine dispatch and the whole run.
- `Scenarios`: concrete inputs, among them the key collision and
  end-to-end runs.

Three behaviours of the code are easy to miss:

- Clean-up of the rendered pages is an ordinary statement after processing
  (`src/fixmissingunicode.py:148-151`), not a guaranteed release. An
  exception during processing leaves the renders behind. Only the normal
  path is modelled.
- Growing a box by `m` and then by `-m` gives the original box only when the
  first call keeps the box's orientation. That is always so for `m >= 0`.
  For a negative margin it is not once the margin reaches half the height
  when top is the larger coordinate, or exceeds half the height otherwise
  (`Geometry.ExpandRoundTripExactly`). The tool only calls it with `m = 2`.
- A character whose decoded text has two or more characters (a ligature)
  makes `ord` raise inside the scan. Nothing catches that exception before
  the run ends, so the document is left unprocessed. `Glyphs.ShouldCharBeOcr`
  returns `None` for it, and `Scanner.Scan` and `Resolver.Run` then return
  `None`.

## Model

| member | source | states |
|---|---|---|
| Geometry.Height | src/fixmissingunicode.py:45-49 | a glyph's height is the non-negative distance between top and bottom, whichever of the two is larger |
| Geometry.HeightSwapSymmetric | src/fixmissingunicode.py:45-49 | height does not depend on which edge the box calls top |
| Geometry.Expand | src/fixmissingunicode.py:384-394 | expansion keeps the box's centre; for a non-negative margin it keeps the orientation and adds twice the margin to both width and height |
| Geometry.ExpandContains | src/fixmissingunicode.py:384-394 | a box grown by a non-negative margin contains the original on every side, in either orientation |
| Geometry.ExpandRoundTrip | src/fixmissingunicode.py:384-394 | shrinking by the same non-negative margin gives back the original box |
| Geometry.ExpandRoundTripExactly | src/fixmissingunicode.py:384-394 | for any margin, the round trip gives back the box exactly when the first expansion did not flip the orientation test |
| Geometry.ExpandRoundTripFailsForNegativeMargin | src/fixmissingunicode.py:384-394 | when top is the larger coordinate, a negative margin of at least half the height is not undone by the opposite margin |
| MaxBy.MaxIndex | src/fixmissingunicode.py:341 | `max` with a key picks the first index whose key no other element exceeds, and every earlier key is strictly smaller |
| MaxBy.MaxIndexFrom | src/fixmissingunicode.py:341 | scanning on from a first maximum of a prefix yields the first maximum of the whole list |
| MaxBy.FirstMaxUnique | src/fixmissingunicode.py:341 | that first maximal index is unique, so the choice is deterministic |
| MaxBy.CountsOfTwoValues | src/fixmissingunicode.py:341 | two different answers together never have more votes than there are answers |
| Ocr.TrimLeadingNewlines | src/ocr.py:56 | removes exactly the leading run of newlines, leaving a suffix that starts with something else |
| Ocr.TrimTrailingNewlines | src/ocr.py:56 | the result is a prefix of the input, everything after it is a newline, it does not end with a newline, and it is non-empty when the input starts with a non-newline |
| Ocr.StripNewlines | src/ocr.py:56 | `strip("\n")` is empty exactly when the text is all newlines; otherwise it neither starts nor ends with a newline and starts with the first non-newline character of the text |
| Ocr.StripNewlinesIsSlice | src/ocr.py:56 | the stripped text is a contiguous piece of the input with only newlines before and after it |
| Ocr.TesseractSymbol | src/ocr.py:56-58 | the answer has at most one character; it is empty exactly when the text is all newlines, and otherwise it is the first non-newline character |
| Ocr.TesseractSymbolIsFirst | src/ocr.py:56-58 | the character after the leading newlines is the answer, spaces included |
| Ocr.TesseractPost | src/ocr.py:52-61 | an exception gives the default character; otherwise at most one character, empty exactly for all-newline output, and otherwise the first non-newline character of the output |
| Ocr.MemberCandidate | src/ocr.py:109-112 | a detection gives no candidate exactly when it has a score that `float` rejects; the text is the second item or "" when missing, and the score is the float of the third item or 0.0 when missing |
| Ocr.ParseMembers | src/ocr.py:107-112 | parsing succeeds exactly when every list member converts; the result then has one candidate per list member, in order, with non-lists skipped |
| Ocr.ParseRapid | src/ocr.py:101-113 | a non-tuple or a tuple whose first item is not a list gives no candidates; an empty tuple raises; otherwise the list members are parsed |
| Ocr.RapidPost | src/ocr.py:73-89 | the default character for an exception, a parse failure or no candidates; otherwise the text of the first candidate with the highest score |
| Ocr.EasyPost | src/ocr.py:125-132 | the first detection, or the default character when there is none or the engine raised |
| Glyphs.ShouldCharBeOcr | src/fixmissingunicode.py:252-261 | a character needs OCR exactly when its text is empty, U+FFFE or U+FEFF; the text raises exactly when it has two or more characters |
| Glyphs.LocationHeight | src/fixmissingunicode.py:43-49 | a location's height is non-negative and is the distance between its box's top and bottom |
| Glyphs.Decimal | src/fixmissingunicode.py:72 | `str` of a char code is a non-empty run of decimal digits with no leading zero unless the code is 0 |
| Glyphs.StringKeyParts | src/fixmissingunicode.py:72 | a key is the font name followed by a non-empty run of digits that reads back as the char code |
| Glyphs.DecimalRoundTrip | src/fixmissingunicode.py:72 | the char code's decimal digits in the key read back as the code |
| Glyphs.IdentityKeyInjective | src/fixmissingunicode.py:72 | a key made of the font and the code never files two glyphs together |
| Glyphs.Lookup | src/fixmissingunicode.py:228 | the lookup finds an entry exactly when the key is present, and returns the glyph filed under it |
| Glyphs.LookupEntry | src/fixmissingunicode.py:228-231 | with distinct keys, each entry is what its own key looks up |
| Glyphs.Record | src/fixmissingunicode.py:225-231 | a new key adds one entry at the end of the iteration order; existing keys keep their places; keys stay distinct |
| Glyphs.RecordLookup | src/fixmissingunicode.py:74-81 | after recording, the key's glyph is the previous glyph with the location appended, or a new glyph for the current font and code holding just this location |
| Glyphs.RecordLookupOther | src/fixmissingunicode.py:225-231 | recording under one key leaves every other key's glyph unchanged |
| Scanner.Group | src/fixmissingunicode.py:225-231 | filing occurrences one by one keeps keys distinct and never removes an entry |
| Scanner.GroupAppend | src/fixmissingunicode.py:216-231 | filing two runs of occurrences one after the other is filing their concatenation |
| Scanner.ScanChars | src/fixmissingunicode.py:216-231 | the character loop fails exactly when some text raises; otherwise the existing entries keep their keys and places, and distinct keys stay distinct |
| Scanner.ScanObjects | src/fixmissingunicode.py:196-214 | the object loop fails exactly when some embedded-font text object has a raising text; otherwise the existing entries keep their keys and places, and distinct keys stay distinct |
| Scanner.ScanPages | src/fixmissingunicode.py:176-191 | the page loop fails exactly when some readable page has a raising text; otherwise the existing entries keep their keys and places, and distinct keys stay distinct |
| Scanner.Scan | src/fixmissingunicode.py:173-235 | the scan fails exactly when some character text on a readable page, in an embedded-font text object, has two or more characters; otherwise the dictionary's keys are distinct |
| Scanner.ScanCharsIsGroup | src/fixmissingunicode.py:216-231 | the character loop raises exactly when some text has two or more characters, and otherwise files the flagged characters in order |
| Scanner.ScanObjectsIsGroup | src/fixmissingunicode.py:196-231 | the object loop skips missing objects, non-text objects and fonts that are absent or not embedded, and files the rest in order |
| Scanner.ScanPagesIsGroup | src/fixmissingunicode.py:176-235 | the page loop skips pages that cannot be acquired or have no content, and files the rest in page order |
| Scanner.ScanIsGroup | src/fixmissingunicode.py:173-235 | the scan is the flagged occurrences of the whole document filed into an empty dictionary, or `None` when some character text raises |
| Scanner.LocationsOf | src/fixmissingunicode.py:226 | one location per occurrence, in order |
| Scanner.ExtendAppended | src/fixmissingunicode.py:228-231 | filing one occurrence and then the rest is the same as filing them all at once |
| Scanner.RecordThenExtend | src/fixmissingunicode.py:225-231 | looking up a key after filing one occurrence and extending is extending the earlier glyph by that occurrence, when its key matches, and then the rest |
| Scanner.GroupLookup | src/fixmissingunicode.py:225-231 | a key's glyph after filing is its earlier glyph extended by the locations of the occurrences with that key, in order |
| Scanner.ScannedGlyph | src/fixmissingunicode.py:173-235 | each key's glyph has the font and code of the first occurrence with that key, and the locations of all occurrences with that key, in document order |
| Scanner.ScannedTableWellFormed | src/fixmissingunicode.py:173-235 | the dictionary's keys are distinct and every glyph has at least one location |
| Scanner.InjectiveWithKey | src/fixmissingunicode.py:72 | with an injective key, the occurrences under a glyph's key are exactly that glyph's occurrences |
| Scanner.OfGlyphMatches | src/fixmissingunicode.py:225 | a glyph's selected occurrences all have its font and code |
| Scanner.InjectiveKeySeparatesGlyphs | src/fixmissingunicode.py:72 | with an injective key, each glyph's entry holds exactly its own locations, in document order |
| Scanner.CharOccurrencesMember | src/fixmissingunicode.py:216-226 | an occurrence comes from a text object exactly when some character of it needs OCR and has that code and box |
| Scanner.ObjectOccurrencesMember | src/fixmissingunicode.py:196-214 | an occurrence comes from a page's content exactly when some embedded-font text object on it yields it |
| Scanner.PageOccurrencesMember | src/fixmissingunicode.py:176-191 | an occurrence comes from the pages from `p` on exactly when some readable page among them yields it |
| Scanner.OccurrenceIsFlaggedChar | src/fixmissingunicode.py:176-231 | an occurrence is recorded exactly when it is a character, on a readable page, in an embedded-font text object, whose text needs OCR |
| HeightOrder.Insert | src/fixmissingunicode.py:279 | insertion into a tallest-first list keeps it tallest first and adds exactly the new location |
| HeightOrder.ConsTallestFirst | src/fixmissingunicode.py:279 | a location at least as tall as the head can go in front |
| HeightOrder.SortByHeight | src/fixmissingunicode.py:279 | the sort result is tallest first and a permutation of the input |
| HeightOrder.InsertWithHeight | src/fixmissingunicode.py:279 | an insertion places the new location before every existing location of the same height |
| HeightOrder.SortIsStable | src/fixmissingunicode.py:279 | locations of equal height keep their original relative order |
| HeightOrder.WithHeightMember | src/fixmissingunicode.py:279 | the locations of one height are exactly the input's locations with that height |
| HeightOrder.WithHeightOfHead | src/fixmissingunicode.py:279 | the height of the first location occurs in the list |
| HeightOrder.StableOrderUnique | src/fixmissingunicode.py:279 | two tallest-first lists with the same order within each height are equal, so a stable sort has exactly one result |
| HeightOrder.SortKeepsOrdered | src/fixmissingunicode.py:279 | sorting a list that is already tallest first changes nothing |
| RenderCache.Find | src/fixmissingunicode.py:364-365 | a cached render is found exactly when its page was rendered, and it is the stored path |
| RenderCache.FindFrom | src/fixmissingunicode.py:364-365 | the search misses exactly when no render is for the page |
| RenderCache.GetPageRender | src/fixmissingunicode.py:364-371 | a cached page is returned without rendering; an uncached page is rendered once and added last; either way the cache then finds the returned path, and each page appears once |
| RenderCache.GetPageRenderIdempotent | src/fixmissingunicode.py:364-371 | asking twice for the same page gives the same path and cache as asking once |
| RenderCache.CleanUp | src/fixmissingunicode.py:441-442 | exactly the cached paths are removed, once each |
| Resolver.OcrCharacter | src/fixmissingunicode.py:407-435 | an unrecognised engine name gives ""; an exception in the configured engine gives the default character; Easy gives its first detection or the default when there is none; Rapid gives the text of the first best-scoring candidate, or the default when parsing fails or finds nothing; Tesseract gives the first non-newline character of its output, or "" when the output is all newlines |
| Resolver.OnlySelectedEngineMatters | src/fixmissingunicode.py:407-414 | the answer depends only on the configured engine's output |
| Resolver.TallestFirstSplit | src/fixmissingunicode.py:279-306 | in a tallest-first list, every location in a prefix is at least as tall as every location after it |
| Resolver.Sample | src/fixmissingunicode.py:300-306 | at most five locations are examined, fewer only when there are fewer, and they are tallest first |
| Resolver.SampleTakesTallest | src/fixmissingunicode.py:279-306 | the examined locations are a sub-multiset of all locations, and none left out is taller than any examined |
| Resolver.OcrAt | src/fixmissingunicode.py:308-321 | a location yields an answer exactly when its page can be acquired; the answer is "" for an unrecognised engine and the default character when the engine raised on the crop |
| Resolver.Results | src/fixmissingunicode.py:303-334 | at most one answer per examined location, and no empty answer is recorded |
| Resolver.ResultsMember | src/fixmissingunicode.py:303-334 | an answer is recorded exactly when it is non-empty and some examined location yields it |
| Resolver.ResultsAppend | src/fixmissingunicode.py:303-334 | answers are recorded in the order of the examined locations: the answers of a concatenation are the answers of the first part followed by those of the second |
| Resolver.ResultsOfOne | src/fixmissingunicode.py:308-334 | one location records its answer when it has a non-empty one, and nothing otherwise |
| Resolver.OcrSamples | src/fixmissingunicode.py:303-336 | the recorded answers are those of `Results`, and the pages rendered are exactly the pages already cached or acquired for an examined location |
| Resolver.Decide | src/fixmissingunicode.py:338-341 | the default character when nothing was recorded; otherwise the first answer with the highest count |
| Resolver.MajorityWins | src/fixmissingunicode.py:341 | an answer recorded more than half the time is the result |
| Resolver.Resolution | src/fixmissingunicode.py:300-341 | a glyph resolves to the default character when nothing was recorded, and otherwise to one of the recorded answers |
| Resolver.ResolutionIsMostFrequent | src/fixmissingunicode.py:338-341 | no recorded answer for a glyph was recorded more often than the one it resolves to |
| Resolver.DecideIsMostFrequent | src/fixmissingunicode.py:341 | the result is a recorded answer at least as frequent as any other |
| Resolver.UnacquiredSamplesFallBack | src/fixmissingunicode.py:303-313 | when no examined location's page can be acquired, the default character is used, whatever the other locations would give |
| Resolver.NothingRecorded | src/fixmissingunicode.py:308-313 | locations on pages that cannot be acquired record nothing |
| Resolver.RaisedVotesForDefault | src/fixmissingunicode.py:331-334 | when the engine raises at every examined location, each one votes for the default character |
| Resolver.RaisingEngineGivesDefault | src/fixmissingunicode.py:300-341 | when the configured engine always raises, every glyph gets the default character |
| Resolver.AllSameCount | src/fixmissingunicode.py:341 | a list of one repeated answer counts that answer once per element |
| Resolver.ResolveGlyph | src/fixmissingunicode.py:281 | a glyph's character is its resolution, and the cache grows by exactly the pages acquired for its examined locations |
| Resolver.ResolveAll | src/fixmissingunicode.py:277-284 | one assignment per dictionary entry, in order; a rejected assignment does not stop the rest |
| Resolver.RecordKeyedByGlyph | src/fixmissingunicode.py:225-231 | recording keeps every entry filed under the key of its own font and code |
| Resolver.GroupKeyedByGlyph | src/fixmissingunicode.py:216-231 | filing keeps every entry under the key of its own font and code |
| Resolver.EachGlyphAssignedOnce | src/fixmissingunicode.py:277-284 | whatever the key, no (font, code) pair is assigned twice |
| Resolver.InjectiveKeyAssignsEveryGlyph | src/fixmissingunicode.py:72 | with a key that never merges two (font, code) pairs, every pair of some flagged character is assigned a symbol |
| Resolver.NeededPageCons | src/fixmissingunicode.py:277-281 | a page is needed by a dictionary exactly when the first entry or the rest needs it |
| Resolver.ResolveAllRenders | src/fixmissingunicode.py:277-284 | after processing, a page is rendered exactly when it was cached before or some glyph's examined location is on it and it can be acquired |
| Resolver.Run | src/fixmissingunicode.py:146-151 | the run fails exactly when a character text raises; otherwise there is one assignment per scanned glyph, each page is rendered once, and the i-th file removed is the file made for the i-th page rendered, so every render is removed once and nothing else is |
| Resolver.RunRenders | src/fixmissingunicode.py:146-151 | a page is rendered during the run exactly when some glyph needs it |
| Scenarios.TieGoesToFirstSeenOf | src/fixmissingunicode.py:341 | any two different answers, once each, resolve to the first |
| Scenarios.TwoOutOfThree | src/fixmissingunicode.py:341 | the answers "B", "A", "A" resolve to "A" |
| Scenarios.TesseractKeepsFirstCharacter | src/ocr.py:56-58 | "\néx\n" reads as "é" and "\n\n" reads as "" |
| Scenarios.FirstOfEqualScores | src/ocr.py:84 | of two candidates with equal scores, `max` picks the first |
| Scenarios.RapidPicksFirstBest | src/ocr.py:73-113 | of two detections with equal scores, the first one's text ("A") is returned; a bad score, an empty tuple or a non-tuple gives the default character |
| Scenarios.EasyTakesFirstDetection | src/ocr.py:125-129 | the first of several detections is returned |
| Scenarios.StringKeyCollides | src/fixmissingunicode.py:72 | font "F1" code 23 and font "F12" code 3 share the key "F123" |
| Scenarios.CollisionOccurrences | src/fixmissingunicode.py:176-231 | the collision document yields font "F1" code 23 and then font "F12" code 3, and no text raises |
| Scenarios.CollisionF12Flagged | src/fixmissingunicode.py:216-226 | the character of font "F12" with code 3 is flagged as needing OCR |
| Scenarios.CollisionMergesGlyphs | src/fixmissingunicode.py:72 | with the program's key, two different glyphs are filed as one entry under the first one's font and code; with a font-and-code key they are two entries |
| Scenarios.TwoPageOccurrences | src/fixmissingunicode.py:176-231 | the two-page document yields the empty-text glyph on page 0 and the U+FEFF glyph on page 1, in that order |
| Scenarios.SampleOfTwo | src/fixmissingunicode.py:279 | of two locations the taller is examined first |
| Scenarios.TwoPageTable | src/fixmissingunicode.py:225-231 | whatever the key, both occurrences are filed as one glyph holding both locations |
| Scenarios.TwoPageScan | src/fixmissingunicode.py:173-235 | whatever the key, the scan of the two-page document is one entry holding the short location and then the tall one |
| Scenarios.CollisionLeavesGlyphUnassigned | src/fixmissingunicode.py:72 | with the program's key, the run makes one assignment, for font "F1" code 23, and never assigns the flagged glyph of font "F12" code 3 |
| Scenarios.TwoPageResolution | src/fixmissingunicode.py:300-341 | when the short location reads "y" and the tall one reads "x", the tie goes to "x" |
| Scenarios.TallestLocationBreaksTie | src/fixmissingunicode.py:146-151 | whatever the key, the whole run assigns "x" to the glyph and renders exactly pages 0 and 1 |
| Scenarios.TallestLocationBreaksTieWithStringKey | src/fixmissingunicode.py:72 | the same run with the program's font-name-and-code key assigns "x" |
| Scenarios.SixLocationsSample | src/fixmissingunicode.py:279-306 | of six locations, the short one on the last page is not examined |
| Scenarios.ShortestLocationLeftOut | src/fixmissingunicode.py:300-313 | when only the left-out location's page can be acquired, the glyph gets the default character |

## Left out

- The PDF SDK (authorization, opening, saving and closing documents, page release) is not modelled. A document is a value whose pages, content and objects may be missing.
- `render_page` and `crop_image` in `src/page_render.py` are not part of this model. A render is an abstract temporary path, and exceptions raised while rendering or cropping are not modelled.
- The OCR engines themselves are left out. Each engine's raw output, or its exception, is an input.
- Temporary files and `os.remove` are left out. Files are abstract paths, and clean-up returns the list of paths it removes.
- The command-line entry point, the update-check thread, the SDK helpers and the test script are outside the core.
- Floating-point coordinates and scores are modelled as reals, so rounding is not modelled.
- The engine name strings live in `constants.py`, which is not part of this model. Engine names are a datatype with a case for unrecognised names.
- Logging and printing are left out.
- The engines' tuning settings (score threshold, detection and angle switches) are left out, because they only affect engine output, which is an input here.
- `_increase_bbox` changes the location's box in place. The model returns a new box, because each location is cropped once and its height is computed before the change.
- The commented-out fallback between engines in `_ocr_character` is not modelled, because it never runs.
- Resolver.Sample: its contract states length and order only. That the examined locations are the tallest is stated separately in `Resolver.SampleTakesTallest`.
- Resolver.Run: only the normal path is modelled. An exception during processing would skip clean-up.

## Findings

| source | as written | input that shows it | evidently intended | confidence | as-written member | corrected member |
|---|---|---|---|---|---|---|
| src/fixmissingunicode.py:72 | the dictionary key is the font name followed by the decimal char code, with no separator | font "F1" with code 23 and font "F12" with code 3 both give "F123", so the flagged glyph of "F12" code 3 is never assigned a symbol; two different embedded fonts with the same name also share keys | one entry per (font, char code), so every flagged glyph is resolved and assigned | not executed | Scenarios.CollisionLeavesGlyphUnassigned | Resolver.InjectiveKeyAssignsEveryGlyph |

=== FILE: geometry.dfy ===
/**
 * Bounding-box geometry used when a glyph location is measured and cropped
 * (`CharLocation._get_height` and `_increase_bbox` in src/fixmissingunicode.py).
 * Coordinates are page-space numbers; `top` and `bottom` name roles, so either
 * may be the numerically larger one.
 */
module Geometry {

  datatype BBox = BBox(left: real, top: real, right: real, bottom: real)

  function Width(b: BBox): real {
    b.right - b.left
  }

  /** `abs(top - bottom)`: the height recorded for a character location. */
  function Height(b: BBox): (h: real)
    ensures h >= 0.0
    ensures h == b.top - b.bottom || h == b.bottom - b.top
  {
    if b.top - b.bottom < 0.0 then b.bottom - b.top else b.top - b.bottom
  }

  /** True when the box uses the convention in which `top` is the larger coordinate. */
  predicate TopAbove(b: BBox) {
    b.bottom < b.top
  }

  /**
   * Grows a box by `m` on every side. Which way `top` and `bottom` move depends
   * on which of them is numerically larger, so that both always move outward.
   */
  function Expand(b: BBox, m: real): (r: BBox)
    // the box keeps its centre
    ensures r.left + r.right == b.left + b.right
    ensures r.top + r.bottom == b.top + b.bottom
    // a non-negative margin keeps the orientation and adds m on each side
    ensures m >= 0.0 ==> TopAbove(r) == TopAbove(b)
    ensures m >= 0.0 ==> Width(r) == Width(b) + 2.0 * m
    ensures m >= 0.0 ==> Height(r) == Height(b) + 2.0 * m
  {
    if b.bottom < b.top then
      BBox(b.left - m, b.top + m, b.right + m, b.bottom - m)
    else
      BBox(b.left - m, b.top - m, b.right + m, b.bottom + m)
  }

  /** The height does not depend on which coordinate is called `top`. */
  lemma HeightSwapSymmetric(b: BBox)
    ensures Height(b.(top := b.bottom, bottom := b.top)) == Height(b)
  {
  }

  /** An expanded box contains the original one, edge by edge. */
  lemma ExpandContains(b: BBox, m: real)
    requires m >= 0.0
    ensures Expand(b, m).left <= b.left && b.right <= Expand(b, m).right
    ensures TopAbove(b) ==> Expand(b, m).top >= b.top && Expand(b, m).bottom <= b.bottom
    ensures !TopAbove(b) ==> Expand(b, m).top <= b.top && Expand(b, m).bottom >= b.bottom
  {
  }

  /** Shrinking by the same non-negative margin undoes an expansion. */
  lemma ExpandRoundTrip(b: BBox, m: real)
    requires m >= 0.0
    ensures Expand(Expand(b, m), -m) == b
  {
  }

  /**
   * Shrinking undoes an expansion exactly when the expansion kept the
   * orientation test's answer. A negative margin of at least half the
   * height flips it, and the second call then moves `top` and `bottom` the
   * other way.
   */
  lemma ExpandRoundTripExactly(b: BBox, m: real)
    ensures Expand(Expand(b, m), -m) == b <==> TopAbove(Expand(b, m)) == TopAbove(b)
  {
    var e := Expand(b, m);
    if TopAbove(b) && !TopAbove(e) {
      assert e.top == b.top + m;
      assert Expand(e, -m).top == b.top + 2.0 * m;
      assert m != 0.0;
    } else if !TopAbove(b) && TopAbove(e) {
      assert e.top == b.top - m;
      assert Expand(e, -m).top == b.top - 2.0 * m;
      assert m != 0.0;
    }
  }

  /** In particular, a margin of minus half the height or more is not undone. */
  lemma ExpandRoundTripFailsForNegativeMargin(b: BBox, m: real)
    requires TopAbove(b) && m < 0.0 && Height(b) <= -2.0 * m
    ensures Expand(Expand(b, m), -m) != b
  {
    var e := Expand(b, m);
    assert e.top == b.top + m && e.bottom == b.bottom - m;
    assert !TopAbove(e);
    ExpandRoundTripExactly(b, m);
  }
}

=== FILE: glyphs.dfy ===
/**
 * The glyph bookkeeping of src/fixmissingunicode.py: `CharLocation`,
 * `MissingGlyph` with its dictionary key, the "needs OCR" test, and the
 * insertion-ordered dictionary the scan fills.
 */
module Glyphs {
  import opened Wrappers
  import opened Geometry

  /**
   * An SDK font object. `id` stands for its object identity: two distinct
   * fonts of a document may carry the same name.
   */
  datatype Font = Font(id: nat, name: string, embedded: bool)

  /** `CharLocation`: a page index and the character's box on that page. */
  datatype Location = Location(page: nat, bbox: BBox)

  /** The height computed once when a `CharLocation` is built. */
  function LocationHeight(l: Location): (h: real)
    ensures h >= 0.0
    ensures h == l.bbox.top - l.bbox.bottom || h == l.bbox.bottom - l.bbox.top
  {
    Height(l.bbox)
  }

  /** `MissingGlyph` without its key: font, char code and the locations found so far. */
  datatype MissingGlyph = MissingGlyph(font: Font, code: nat, locations: seq<Location>)

  // ---------------------------------------------------------------------------
  // The "needs OCR" test

  /**
   * `_should_char_be_ocr`: the decoded text is empty, U+FFFE or U+FEFF.
   * Python's `ord` raises on a text of two or more characters, and nothing
   * catches that exception before the run ends; `None` stands for it.
   */
  function ShouldCharBeOcr(text: string): (r: Option<bool>)
    ensures r.None? <==> |text| >= 2
    ensures r == Some(true) <==> text == [] || (|text| == 1 && (text[0] as int == 65534 || text[0] as int == 65279))
  {
    if text == "" then Some(true)
    else if |text| != 1 then None
    else Some(text[0] == '\U{FFFE}' || text[0] == '\U{FEFF}')
  }

  // ---------------------------------------------------------------------------
  // Decimal rendering of char codes (`f"{char_code}"`)

  predicate IsDigit(c: char) {
    '0' <= c <= '9'
  }

  function DigitChar(d: nat): (c: char)
    requires d < 10
    ensures IsDigit(c) && c as int - '0' as int == d
  {
    (48 + d) as char
  }

  /** Python's `str(n)` for a non-negative integer. */
  function Decimal(n: nat): (s: string)
    ensures |s| >= 1
    ensures forall i :: 0 <= i < |s| ==> IsDigit(s[i])
    ensures s[0] == '0' ==> n == 0
    decreases n
  {
    if n < 10 then [DigitChar(n)] else Decimal(n / 10) + [DigitChar(n % 10)]
  }

  /** The value of a string of decimal digits. */
  function DecimalValue(s: string): nat
    requires forall i :: 0 <= i < |s| ==> IsDigit(s[i])
  {
    if s == [] then 0
    else
      var last := s[|s| - 1];
      assert IsDigit(last);
      DecimalValue(s[..|s| - 1]) * 10 + (last as int - '0' as int)
  }

  /** Reading back the rendering of a char code gives the code. */
  lemma {:induction false} DecimalRoundTrip(n: nat)
    ensures DecimalValue(Decimal(n)) == n
    decreases n
  {
    if n >= 10 {
      DecimalRoundTrip(n / 10);
      var s := Decimal(n);
      assert s[..|s| - 1] == Decimal(n / 10);
    }
  }

  // ---------------------------------------------------------------------------
  // Dictionary keys

  /**
   * `MissingGlyph.key` as written: the font name followed by the decimal
   * char code, with nothing between them.
   */
  function StringKey(font: Font, code: nat): string {
    font.name + Decimal(code)
  }

  /**
   * The key starts with the font name, and the digits after it read back as
   * the char code; where the name ends is not recorded in the key.
   */
  lemma StringKeyParts(font: Font, code: nat)
    ensures |StringKey(font, code)| > |font.name| && StringKey(font, code)[..|font.name|] == font.name
    ensures forall i :: |font.name| <= i < |StringKey(font, code)| ==> IsDigit(StringKey(font, code)[i])
    ensures DecimalValue(StringKey(font, code)[|font.name|..]) == code
  {
    var r := StringKey(font, code);
    assert r[|font.name|..] == Decimal(code);
    DecimalRoundTrip(code);
  }

  /** A key that keeps the font object and the char code apart. */
  function IdentityKey(font: Font, code: nat): (Font, nat) {
    (font, code)
  }

  /** True when different (font, code) pairs never share a key. */
  ghost predicate Injective<K>(keyOf: (Font, nat) -> K) {
    forall f1, c1, f2, c2 :: keyOf(f1, c1) == keyOf(f2, c2) ==> f1 == f2 && c1 == c2
  }

  lemma IdentityKeyInjective()
    ensures Injective(IdentityKey)
  {
  }

  // ---------------------------------------------------------------------------
  // The insertion-ordered dictionary from key to `MissingGlyph`

  datatype Entry<K> = Entry(key: K, glyph: MissingGlyph)

  type Table<K> = seq<Entry<K>>

  predicate DistinctKeys<K(==)>(t: Table<K>) {
    forall i, j :: 0 <= i < j < |t| ==> t[i].key != t[j].key
  }

  /** `t.get(k)`. */
  function Lookup<K(==)>(t: Table<K>, k: K): (r: Option<MissingGlyph>)
    ensures r.None? <==> forall i :: 0 <= i < |t| ==> t[i].key != k
    ensures r.Some? ==> exists i :: 0 <= i < |t| && t[i].key == k && t[i].glyph == r.value
  {
    if t == [] then None
    else if t[0].key == k then Some(t[0].glyph)
    else Lookup(t[1..], k)
  }

  /** In a table with distinct keys every entry is found under its own key. */
  lemma {:induction false} LookupEntry<K>(t: Table<K>, i: nat)
    requires DistinctKeys(t) && i < |t|
    ensures Lookup(t, t[i].key) == Some(t[i].glyph)
  {
    if i > 0 {
      LookupEntry(t[1..], i - 1);
    }
  }

  /** The glyph an entry holds after one more location: a new glyph if there was none. */
  function Appended(g: Option<MissingGlyph>, font: Font, code: nat, loc: Location): MissingGlyph {
    match g
    case None => MissingGlyph(font, code, [loc])
    case Some(g) => g.(locations := g.locations + [loc])
  }

  /**
   * One step of the scan loop: create the entry for `k` from the current
   * character's font and code if the key is new, then append the location.
   * A new key goes last in the iteration order; known keys keep their places.
   */
  function Record<K(==)>(t: Table<K>, k: K, font: Font, code: nat, loc: Location): (r: Table<K>)
    ensures |r| == if Lookup(t, k).None? then |t| + 1 else |t|
    ensures forall i :: 0 <= i < |t| ==> r[i].key == t[i].key
    ensures |r| > |t| ==> r[|t|].key == k
    ensures DistinctKeys(t) ==> DistinctKeys(r)
  {
    if t == [] then [Entry(k, MissingGlyph(font, code, [loc]))]
    else if t[0].key == k then [t[0].(glyph := t[0].glyph.(locations := t[0].glyph.locations + [loc]))] + t[1..]
    else [t[0]] + Record(t[1..], k, font, code, loc)
  }

  /** The recorded key now holds the location, appended after the earlier ones. */
  lemma {:induction false} RecordLookup<K>(t: Table<K>, k: K, font: Font, code: nat, loc: Location)
    ensures Lookup(Record(t, k, font, code, loc), k) == Some(Appended(Lookup(t, k), font, code, loc))
  {
    if t != [] && t[0].key != k {
      RecordLookup(t[1..], k, font, code, loc);
    }
  }

  /** Every other key is left as it was. */
  lemma {:induction false} RecordLookupOther<K>(t: Table<K>, k: K, font: Font, code: nat, loc: Location, k': K)
    requires k' != k
    ensures Lookup(Record(t, k, font, code, loc), k') == Lookup(t, k')
  {
    if t != [] && t[0].key != k {
      RecordLookupOther(t[1..], k, font, code, loc, k');
    }
  }
}

=== FILE: heightorder.dfy ===
/**
 * `locations.sort(key=lambda x: x.height, reverse=True)` in
 * `_process_all_missing_occurences` (src/fixmissingunicode.py): Python's sort
 * is stable also with `reverse=True`, so locations of equal height keep
 * their discovery order.
 */
module HeightOrder {
  import opened Glyphs

  predicate TallestFirst(s: seq<Location>) {
    forall i, j :: 0 <= i < j < |s| ==> LocationHeight(s[i]) >= LocationHeight(s[j])
  }

  /** The locations of height `h`, in order. */
  function WithHeight(s: seq<Location>, h: real): seq<Location> {
    if s == [] then []
    else (if LocationHeight(s[0]) == h then [s[0]] else []) + WithHeight(s[1..], h)
  }

  /** Puts `x` in front of the first location that is not taller than it. */
  function Insert(x: Location, s: seq<Location>): (r: seq<Location>)
    requires TallestFirst(s)
    ensures TallestFirst(r)
    ensures multiset(r) == multiset(s) + multiset{x}
    ensures |r| == |s| + 1
    ensures r[0] == x || (s != [] && r[0] == s[0])
  {
    if s == [] || LocationHeight(s[0]) <= LocationHeight(x) then
      ConsTallestFirst(x, s);
      [x] + s
    else
      var rest := Insert(x, s[1..]);
      assert s == [s[0]] + s[1..];
      ConsTallestFirst(s[0], rest);
      [s[0]] + rest
  }

  /** A location at least as tall as the head of a tallest-first sequence can go in front. */
  lemma ConsTallestFirst(x: Location, s: seq<Location>)
    requires TallestFirst(s)
    requires s != [] ==> LocationHeight(x) >= LocationHeight(s[0])
    ensures TallestFirst([x] + s)
  {
    var r := [x] + s;
    forall i, j | 0 <= i < j < |r| ensures LocationHeight(r[i]) >= LocationHeight(r[j]) {
      if i == 0 {
        assert r[j] == s[j - 1];
      } else {
        assert r[i] == s[i - 1] && r[j] == s[j - 1];
      }
    }
  }

  /** The locations, tallest first; a stable insertion sort. */
  function SortByHeight(s: seq<Location>): (r: seq<Location>)
    ensures TallestFirst(r)
    ensures multiset(r) == multiset(s)
    ensures |r| == |s|
  {
    if s == [] then []
    else
      assert s == [s[0]] + s[1..];
      Insert(s[0], SortByHeight(s[1..]))
  }

  lemma {:induction false} InsertWithHeight(x: Location, s: seq<Location>, h: real)
    requires TallestFirst(s)
    ensures WithHeight(Insert(x, s), h) == (if LocationHeight(x) == h then [x] else []) + WithHeight(s, h)
  {
    if !(s == [] || LocationHeight(s[0]) <= LocationHeight(x)) {
      InsertWithHeight(x, s[1..], h);
      var mid := if LocationHeight(x) == h then [x] else [];
      var head := if LocationHeight(s[0]) == h then [s[0]] else [];
      assert mid == [] || head == [];
      assert ([s[0]] + Insert(x, s[1..]))[1..] == Insert(x, s[1..]);
      assert head + (mid + WithHeight(s[1..], h)) == mid + (head + WithHeight(s[1..], h));
    }
  }

  /** Stability: the locations of each height come out in the order they came in. */
  lemma {:induction false} SortIsStable(s: seq<Location>, h: real)
    ensures WithHeight(SortByHeight(s), h) == WithHeight(s, h)
  {
    if s != [] {
      SortIsStable(s[1..], h);
      InsertWithHeight(s[0], SortByHeight(s[1..]), h);
    }
  }

  lemma {:induction false} WithHeightMember(s: seq<Location>, h: real, x: Location)
    ensures x in WithHeight(s, h) <==> x in s && LocationHeight(x) == h
  {
    if s != [] {
      WithHeightMember(s[1..], h, x);
      assert x in s <==> x == s[0] || x in s[1..];
    }
  }

  lemma WithHeightOfHead(s: seq<Location>)
    requires s != []
    ensures WithHeight(s, LocationHeight(s[0])) != []
  {
  }

  /**
   * A tallest-first order that keeps every height class in its original order
   * is unique: the sort's result is the only one.
   */
  lemma {:induction false} StableOrderUnique(a: seq<Location>, b: seq<Location>)
    requires TallestFirst(a) && TallestFirst(b)
    requires forall h :: WithHeight(a, h) == WithHeight(b, h)
    ensures a == b
    decreases |a| + |b|
  {
    if a == [] && b == [] {
      return;
    }
    if a == [] {
      WithHeightOfHead(b);
      assert false;
    }
    if b == [] {
      WithHeightOfHead(a);
      assert false;
    }
    var ha, hb := LocationHeight(a[0]), LocationHeight(b[0]);
    WithHeightMember(a, hb, b[0]);
    WithHeightMember(b, hb, b[0]);
    WithHeightMember(a, ha, a[0]);
    WithHeightMember(b, ha, a[0]);
    assert ha == hb;
    assert a[0] == b[0] by {
      assert WithHeight(a, ha) == [a[0]] + WithHeight(a[1..], ha);
      assert WithHeight(b, ha) == [b[0]] + WithHeight(b[1..], ha);
      assert WithHeight(a, ha)[0] == a[0];
      assert WithHeight(b, ha)[0] == b[0];
    }
    forall h
      ensures WithHeight(a[1..], h) == WithHeight(b[1..], h)
    {
      var wa, wb := WithHeight(a, h), WithHeight(b, h);
      assert wa == wb;
      if ha == h {
        assert wa == [a[0]] + WithHeight(a[1..], h);
        assert wb == [b[0]] + WithHeight(b[1..], h);
        assert wa[1..] == WithHeight(a[1..], h);
        assert wb[1..] == WithHeight(b[1..], h);
      } else {
        assert wa == [] + WithHeight(a[1..], h) == WithHeight(a[1..], h);
        assert wb == [] + WithHeight(b[1..], h) == WithHeight(b[1..], h);
      }
    }
    StableOrderUnique(a[1..], b[1..]);
    assert a == [a[0]] + a[1..] && b == [b[0]] + b[1..];
  }

  /** Locations already in tallest-first order come out of the sort unchanged. */
  lemma SortKeepsOrdered(s: seq<Location>)
    requires TallestFirst(s)
    ensures SortByHeight(s) == s
  {
    forall h ensures WithHeight(SortByHeight(s), h) == WithHeight(s, h) {
      SortIsStable(s, h);
    }
    StableOrderUnique(SortByHeight(s), s);
  }
}

=== FILE: maxby.dfy ===
/**
 * Python's `max(xs, key=f)`, which both the glyph vote and the Rapid OCR
 * candidate choice rely on: the result is the FIRST element whose key is
 * maximal, because the built-in replaces its running maximum only on a
 * strictly greater key. Also `list.count`.
 */
module MaxBy {

  /** `i` is the position Python's `max(xs, key=key)` returns. */
  predicate IsFirstMax<T>(xs: seq<T>, key: T -> real, i: int) {
    && 0 <= i < |xs|
    && (forall j :: 0 <= j < |xs| ==> key(xs[j]) <= key(xs[i]))
    && (forall j :: 0 <= j < i ==> key(xs[j]) < key(xs[i]))
  }

  /** At most one position satisfies `IsFirstMax`, so the choice is determined. */
  lemma FirstMaxUnique<T>(xs: seq<T>, key: T -> real, i: int, k: int)
    requires IsFirstMax(xs, key, i) && IsFirstMax(xs, key, k)
    ensures i == k
  {
    assert key(xs[i]) == key(xs[k]);
  }

  /** The running-maximum scan of the built-in, resumed at position `k`. */
  function MaxIndexFrom<T>(xs: seq<T>, key: T -> real, k: nat, best: nat): (i: nat)
    requires best < k <= |xs|
    requires forall j :: 0 <= j < k ==> key(xs[j]) <= key(xs[best])
    requires forall j :: 0 <= j < best ==> key(xs[j]) < key(xs[best])
    ensures IsFirstMax(xs, key, i)
    decreases |xs| - k
  {
    if k == |xs| then best
    else if key(xs[best]) < key(xs[k]) then MaxIndexFrom(xs, key, k + 1, k)
    else MaxIndexFrom(xs, key, k + 1, best)
  }

  /** Position of `max(xs, key=key)`; Python raises on an empty sequence. */
  function MaxIndex<T>(xs: seq<T>, key: T -> real): (i: nat)
    requires |xs| > 0
    ensures IsFirstMax(xs, key, i)
  {
    MaxIndexFrom(xs, key, 1, 0)
  }

  /** `xs.count(x)`. */
  function Count<T(==)>(xs: seq<T>, x: T): nat {
    multiset(xs)[x]
  }

  /** Two different values cannot together occur more often than the sequence is long. */
  lemma {:induction false} CountsOfTwoValues<T>(xs: seq<T>, x: T, y: T)
    requires x != y
    ensures Count(xs, x) + Count(xs, y) <= |xs|
  {
    if xs != [] {
      CountsOfTwoValues(xs[1..], x, y);
      assert xs == [xs[0]] + xs[1..];
      assert multiset(xs) == multiset([xs[0]]) + multiset(xs[1..]);
    }
  }
}

=== FILE: ocr.dfy ===
/**
 * Post-processing of the three OCR engines' raw output into one symbol
 * (src/ocr.py). The engines themselves are not modelled: what an engine
 * returned, or the fact that it raised, is an input.
 */
module Ocr {
  import opened Wrappers
  import opened MaxBy

  /** What a call into an engine did: returned a value, or raised an exception. */
  datatype Call<+T> = Returned(value: T) | Raised

  // ---------------------------------------------------------------------------
  // Tesseract: strip newlines, keep the first character

  /** Every character of `s` from position `lo` up to (not including) `hi` is a newline. */
  predicate NewlinesIn(s: string, lo: int, hi: int)
    requires 0 <= lo && hi <= |s|
  {
    forall i :: lo <= i < hi ==> s[i] == '\n'
  }

  predicate AllNewlines(s: string) {
    NewlinesIn(s, 0, |s|)
  }

  /** `j` is the first position of `s` that is not a newline. */
  predicate FirstNonNewline(s: string, j: int) {
    0 <= j < |s| && s[j] != '\n' && NewlinesIn(s, 0, j)
  }

  /** The left half of `s.strip("\n")`: the suffix of `s` after its leading newlines. */
  function TrimLeadingNewlines(s: string): (r: string)
    ensures |r| <= |s| && r == s[|s| - |r|..]
    ensures NewlinesIn(s, 0, |s| - |r|)
    ensures r == [] || r[0] != '\n'
    decreases |s|
  {
    if s != [] && s[0] == '\n' then TrimLeadingNewlines(s[1..]) else s
  }

  /** The right half of `s.strip("\n")`: the prefix of `s` before its trailing newlines. */
  function TrimTrailingNewlines(s: string): (r: string)
    ensures |r| <= |s| && r == s[..|r|]
    ensures NewlinesIn(s, |r|, |s|)
    ensures r == [] || r[|r| - 1] != '\n'
    ensures s != [] && s[0] != '\n' ==> r != []
    decreases |s|
  {
    if s != [] && s[|s| - 1] == '\n' then TrimTrailingNewlines(s[..|s| - 1]) else s
  }

  /**
   * `s.strip("\n")`: empty exactly when `s` is all newlines; otherwise it
   * starts with the first character that is not a newline and neither starts
   * nor ends with a newline.
   */
  function StripNewlines(s: string): (r: string)
    ensures r == [] <==> AllNewlines(s)
    ensures r == [] || (r[0] != '\n' && r[|r| - 1] != '\n')
    ensures r != [] ==> FirstNonNewline(s, |s| - |TrimLeadingNewlines(s)|) && r[0] == s[|s| - |TrimLeadingNewlines(s)|]
  {
    var left := TrimLeadingNewlines(s);
    var i := |s| - |left|;
    assert left != [] ==> s[i] == left[0];
    TrimTrailingNewlines(left)
  }

  /** Only newlines are removed, and only at the two ends: the result is a slice of `s`. */
  lemma StripNewlinesIsSlice(s: string)
    ensures exists i :: 0 <= i <= |s| - |StripNewlines(s)| && StripNewlines(s) == s[i..i + |StripNewlines(s)|]
                        && NewlinesIn(s, 0, i) && NewlinesIn(s, i + |StripNewlines(s)|, |s|)
  {
    var left := TrimLeadingNewlines(s);
    var r := TrimTrailingNewlines(left);
    var i := |s| - |left|;
    assert r == StripNewlines(s);
    assert r == s[i..i + |r|] by {
      assert left == s[i..] && r == left[..|r|];
    }
    assert NewlinesIn(s, i + |r|, |s|) by {
      forall k | i + |r| <= k < |s| ensures s[k] == '\n' {
        assert s[k] == left[k - i];
      }
    }
    assert NewlinesIn(s, 0, i);
  }

  /**
   * The symbol `tesseract_ocr` returns for the text Tesseract recognised: the
   * first character that is not a newline, or "" when there is none. Spaces
   * are kept.
   */
  function TesseractSymbol(text: string): (r: string)
    ensures |r| <= 1
    ensures r == [] <==> AllNewlines(text)
    ensures r != [] ==> exists j :: FirstNonNewline(text, j) && r == [text[j]]
  {
    var stripped := StripNewlines(text);
    if stripped != "" then [stripped[0]] else ""
  }

  /** The symbol is the first character that is not a newline, wherever that is. */
  lemma TesseractSymbolIsFirst(text: string, j: int)
    requires FirstNonNewline(text, j)
    ensures TesseractSymbol(text) == [text[j]]
  {
    assert !AllNewlines(text) by { assert text[j] != '\n'; }
    var r := TesseractSymbol(text);
    assert r != [];
    var k :| FirstNonNewline(text, k) && r == [text[k]];
  }

  /** `tesseract_ocr`: an exception gives the default character. */
  function TesseractPost(out: Call<string>, default: string): (r: string)
    ensures out.Raised? ==> r == default
    ensures out.Returned? ==> |r| <= 1 && (r == [] <==> AllNewlines(out.value))
    ensures out.Returned? && r != [] ==> exists j :: FirstNonNewline(out.value, j) && r == [out.value[j]]
  {
    match out
    case Raised => default
    case Returned(text) => TesseractSymbol(text)
  }

  // ---------------------------------------------------------------------------
  // Rapid: parse the loosely typed result, keep the best-scoring text

  /**
   * A Python value as far as `_parse_rapid_ocr` looks at it. A scalar is
   * described by what `str()` and `float()` give for it (`float()` raising is
   * `None`); for lists and tuples `float()` always raises.
   */
  datatype PyValue =
    | Scalar(asStr: string, asFloat: Option<real>)
    | List(items: seq<PyValue>, asStr: string)
    | Tuple(items: seq<PyValue>, asStr: string)

  /** `float(v)`, `None` when it raises. */
  function PyFloat(v: PyValue): Option<real> {
    if v.Scalar? then v.asFloat else None
  }

  datatype Candidate = Candidate(text: string, score: real)

  function Score(c: Candidate): real {
    c.score
  }

  /**
   * One list member `[box, text, score]`: a missing text is "", a missing
   * score is 0.0, and a score `float()` rejects raises (`None`).
   */
  function MemberCandidate(member: seq<PyValue>): (r: Option<Candidate>)
    ensures r.None? <==> |member| > 2 && PyFloat(member[2]).None?
    ensures r.Some? ==> r.value.text == (if |member| > 1 then member[1].asStr else "")
    ensures r.Some? && |member| <= 2 ==> r.value.score == 0.0
    ensures r.Some? && |member| > 2 ==> r.value.score == PyFloat(member[2]).value
  {
    var text := if |member| > 1 then member[1].asStr else "";
    if |member| > 2 then
      match PyFloat(member[2])
      case None => None
      case Some(x) => Some(Candidate(text, x))
    else
      Some(Candidate(text, 0.0))
  }

  /** The members of `ms` that are lists, in order, as their item sequences. */
  function ListMembers(ms: seq<PyValue>): seq<seq<PyValue>> {
    if ms == [] then []
    else if ms[0].List? then [ms[0].items] + ListMembers(ms[1..])
    else ListMembers(ms[1..])
  }

  /**
   * The loop over the detections: one candidate per list member, in order,
   * non-list members skipped; `None` when some score cannot be converted.
   */
  function ParseMembers(ms: seq<PyValue>): (r: Option<seq<Candidate>>)
    ensures r.Some? <==> forall i :: 0 <= i < |ListMembers(ms)| ==> MemberCandidate(ListMembers(ms)[i]).Some?
    ensures r.Some? ==> |r.value| == |ListMembers(ms)|
    ensures r.Some? ==> forall i :: 0 <= i < |r.value| ==> MemberCandidate(ListMembers(ms)[i]) == Some(r.value[i])
  {
    if ms == [] then Some([])
    else if !ms[0].List? then
      assert ListMembers(ms) == ListMembers(ms[1..]);
      ParseMembers(ms[1..])
    else
      assert ListMembers(ms) == [ms[0].items] + ListMembers(ms[1..]);
      match MemberCandidate(ms[0].items)
      case None =>
        assert !MemberCandidate(ListMembers(ms)[0]).Some?;
        None
      case Some(c) =>
        match ParseMembers(ms[1..])
        case None =>
          assert exists i :: 0 <= i < |ListMembers(ms)| && !MemberCandidate(ListMembers(ms)[i]).Some? by {
            var i :| 0 <= i < |ListMembers(ms[1..])| && !MemberCandidate(ListMembers(ms[1..])[i]).Some?;
            assert ListMembers(ms)[i + 1] == ListMembers(ms[1..])[i];
          }
          None
        case Some(cs) => Some([c] + cs)
  }

  /**
   * `_parse_rapid_ocr`. `None` means the parse raised: indexing an empty tuple,
   * or a score `float()` rejects.
   */
  function ParseRapid(result: PyValue): (r: Option<seq<Candidate>>)
    ensures !result.Tuple? ==> r == Some([])
    ensures result.Tuple? && result.items == [] ==> r.None?
    ensures result.Tuple? && result.items != [] && !result.items[0].List? ==> r == Some([])
    ensures result.Tuple? && result.items != [] && result.items[0].List? ==>
              r == ParseMembers(result.items[0].items)
  {
    if !result.Tuple? then Some([])
    else if result.items == [] then None
    else if !result.items[0].List? then Some([])
    else ParseMembers(result.items[0].items)
  }

  /**
   * `rapid_ocr`: the text of the highest-scoring candidate, the first one on
   * equal scores; the default character when there is no candidate or when
   * anything raised.
   */
  function RapidPost(out: Call<PyValue>, default: string): (r: string)
    ensures out.Raised? ==> r == default
    ensures out.Returned? && ParseRapid(out.value).None? ==> r == default
    ensures out.Returned? && ParseRapid(out.value) == Some([]) ==> r == default
    ensures out.Returned? && ParseRapid(out.value).Some? && ParseRapid(out.value).value != [] ==>
              exists i :: IsFirstMax(ParseRapid(out.value).value, Score, i) && r == ParseRapid(out.value).value[i].text
  {
    match out
    case Raised => default
    case Returned(v) =>
      match ParseRapid(v)
      case None => default
      case Some(cs) => if |cs| > 0 then cs[MaxIndex(cs, Score)].text else default
  }

  // ---------------------------------------------------------------------------
  // Easy: first detection

  /** `easy_ocr`: the first recognised string, or the default character. */
  function EasyPost(out: Call<seq<string>>, default: string): (r: string)
    ensures out.Raised? ==> r == default
    ensures out.Returned? && out.value == [] ==> r == default
    ensures out.Returned? && out.value != [] ==> r == out.value[0]
  {
    match out
    case Raised => default
    case Returned(texts) => if |texts| > 0 then texts[0] else default
  }
}

=== FILE: rendercache.dfy ===
/**
 * The page-render cache of src/fixmissingunicode.py: `cached_renders`,
 * filled by `_get_pdf_page_render` and emptied of files by
 * `_clean_up_rendered_pages`. The rendering itself and the file system are
 * not modelled; a render is recorded as the page it was made for and the
 * temporary file that holds it.
 */
module RenderCache {
  import opened Wrappers

  /**
   * A temporary JPEG file. `_get_pdf_page_render` lets `tempfile` choose a
   * fresh name; the serial number stands for that freshness.
   */
  datatype TempPath = TempPath(page: nat, serial: nat)

  datatype Render = Render(page: nat, path: TempPath)

  /** `cached_renders`: page index to file, in insertion order. */
  datatype Cache = Cache(renders: seq<Render>)

  const Empty: Cache := Cache([])

  /** Each render has a fresh file, and no page is rendered twice. */
  predicate Valid(c: Cache) {
    && (forall i :: 0 <= i < |c.renders| ==> c.renders[i].path == TempPath(c.renders[i].page, i))
    && (forall i, j :: 0 <= i < j < |c.renders| ==> c.renders[i].page != c.renders[j].page)
  }

  /** The rendered pages in the order they were rendered. */
  function Pages(c: Cache): (ps: seq<nat>)
    ensures |ps| == |c.renders|
    ensures forall i :: 0 <= i < |ps| ==> ps[i] == c.renders[i].page
  {
    seq(|c.renders|, i requires 0 <= i < |c.renders| => c.renders[i].page)
  }

  /** `cached_renders.get(page)`. */
  function Find(c: Cache, page: nat): (r: Option<TempPath>)
    ensures r.None? <==> page !in Pages(c)
    ensures r.Some? ==> exists i :: 0 <= i < |c.renders| && c.renders[i] == Render(page, r.value)
  {
    FindFrom(c.renders, page)
  }

  function FindFrom(rs: seq<Render>, page: nat): (r: Option<TempPath>)
    ensures r.None? <==> forall i :: 0 <= i < |rs| ==> rs[i].page != page
    ensures r.Some? ==> exists i :: 0 <= i < |rs| && rs[i] == Render(page, r.value)
  {
    if rs == [] then None
    else if rs[0].page == page then Some(rs[0].path)
    else FindFrom(rs[1..], page)
  }

  /**
   * `_get_pdf_page_render`: the cached file of a page if there is one;
   * otherwise the page is rendered into a fresh file, which is cached.
   */
  function GetPageRender(c: Cache, page: nat): (r: (TempPath, Cache))
    ensures Valid(c) ==> Valid(r.1)
    ensures page in Pages(c) ==> r.1 == c
    ensures page !in Pages(c) ==> Pages(r.1) == Pages(c) + [page]
    ensures Find(r.1, page) == Some(r.0)
  {
    match Find(c, page)
    case Some(path) => (path, c)
    case None =>
      var path := TempPath(page, |c.renders|);
      var c' := Cache(c.renders + [Render(page, path)]);
      assert Pages(c') == Pages(c) + [page];
      assert c'.renders[|c.renders|] == Render(page, path);
      (path, c')
  }

  /** Asking again for a page returns the same file and renders nothing. */
  lemma GetPageRenderIdempotent(c: Cache, page: nat)
    ensures GetPageRender(GetPageRender(c, page).1, page) == GetPageRender(c, page)
  {
  }

  /**
   * `_clean_up_rendered_pages`: the files removed, in the dictionary's order.
   * Every cached file is removed, and in a valid cache none twice.
   */
  function CleanUp(c: Cache): (removed: seq<TempPath>)
    ensures |removed| == |c.renders|
    ensures forall p :: p in removed <==> exists i :: 0 <= i < |c.renders| && c.renders[i].path == p
    ensures Valid(c) ==> forall i, j :: 0 <= i < j < |removed| ==> removed[i] != removed[j]
  {
    var removed := seq(|c.renders|, i requires 0 <= i < |c.renders| => c.renders[i].path);
    assert forall i :: 0 <= i < |c.renders| ==> removed[i] == c.renders[i].path;
    removed
  }
}

=== FILE: resolver.dfy ===
/**
 * Resolution and write-back in src/fixmissingunicode.py:
 * `_process_all_missing_occurences`, `_ocr_missing_glyph`, `_ocr_character`
 * and the run order of `fix_missing_unicode`. Acquiring a page again,
 * rendering, cropping and the OCR engines are inputs collected in `Env`.
 */
module Resolver {
  import opened Wrappers
  import opened Geometry
  import opened Glyphs
  import opened MaxBy
  import opened Ocr
  import opened HeightOrder
  import opened RenderCache
  import opened Scanner

  /** At most this many locations of a glyph are examined. */
  const MaxSamples: nat := 5

  /** The margin added around a character's box before cropping. */
  const CropMargin: real := 2.0

  // ---------------------------------------------------------------------------
  // Engine dispatch

  /** The engine named in the configuration; the three known names come from constants.py. */
  datatype EngineName = EasyOcr | RapidOcr | TesseractOcr | Unrecognised(name: string)

  /** What each engine does with one cropped tile. */
  datatype EngineOutputs = EngineOutputs(easy: Call<seq<string>>, rapid: Call<PyValue>, tesseract: Call<string>)

  /**
   * `_ocr_character`: the configured engine's symbol; "" for a name no case
   * matches, the default character when the engine raised.
   */
  function OcrCharacter(engine: EngineName, default: string, out: EngineOutputs): (r: string)
    ensures engine.Unrecognised? ==> r == ""
    ensures SelectedRaised(engine, out) ==> r == default
    // Easy: the first detection, or the default when there is none
    ensures engine == EasyOcr && out.easy.Returned? && out.easy.value != [] ==> r == out.easy.value[0]
    ensures engine == EasyOcr && out.easy.Returned? && out.easy.value == [] ==> r == default
    // Rapid: the text of the first best-scoring candidate, or the default
    ensures engine == RapidOcr && out.rapid.Returned? && ParseRapid(out.rapid.value).Some? && ParseRapid(out.rapid.value).value != [] ==>
              exists i :: IsFirstMax(ParseRapid(out.rapid.value).value, Score, i) && r == ParseRapid(out.rapid.value).value[i].text
    ensures engine == RapidOcr && out.rapid.Returned? && (ParseRapid(out.rapid.value).None? || ParseRapid(out.rapid.value) == Some([])) ==> r == default
    // Tesseract: the first non-newline character, or "" for all-newline output
    ensures engine == TesseractOcr && out.tesseract.Returned? ==> |r| <= 1 && (r == [] <==> AllNewlines(out.tesseract.value))
    ensures engine == TesseractOcr && out.tesseract.Returned? && r != [] ==>
              exists j :: FirstNonNewline(out.tesseract.value, j) && r == [out.tesseract.value[j]]
  {
    match engine
    case EasyOcr => EasyPost(out.easy, default)
    case RapidOcr => RapidPost(out.rapid, default)
    case TesseractOcr => TesseractPost(out.tesseract, default)
    case Unrecognised(_) => ""
  }

  /** The output of the engine `engine` selects. */
  predicate SelectedRaised(engine: EngineName, out: EngineOutputs) {
    match engine
    case EasyOcr => out.easy.Raised?
    case RapidOcr => out.rapid.Raised?
    case TesseractOcr => out.tesseract.Raised?
    case Unrecognised(_) => false
  }

  /** Only the configured engine's output matters. */
  lemma OnlySelectedEngineMatters(engine: EngineName, default: string, a: EngineOutputs, b: EngineOutputs)
    requires engine == EasyOcr ==> a.easy == b.easy
    requires engine == RapidOcr ==> a.rapid == b.rapid
    requires engine == TesseractOcr ==> a.tesseract == b.tesseract
    ensures OcrCharacter(engine, default, a) == OcrCharacter(engine, default, b)
  {
  }

  // ---------------------------------------------------------------------------
  // The environment of a run

  /**
   * `engine` and `defaultChar` are the configuration. `acquire` tells whether
   * a page can be acquired again during resolution; `tile` is what the engines
   * report on the crop of a page around a box; `setUnicode` is whether the
   * SDK accepts a code-to-Unicode assignment.
   */
  datatype Env = Env(
    engine: EngineName,
    defaultChar: string,
    acquire: nat -> bool,
    tile: (nat, BBox) -> EngineOutputs,
    setUnicode: (Font, nat, string) -> bool)

  // ---------------------------------------------------------------------------
  // Choosing the locations to examine

  /** In a tallest-first sequence, everything before position `n` is at least as tall as everything after. */
  lemma TallestFirstSplit(s: seq<Location>, n: nat)
    requires TallestFirst(s) && n <= |s|
    ensures forall x, y :: x in s[..n] && y in s[n..] ==> LocationHeight(x) >= LocationHeight(y)
  {
    forall x, y | x in s[..n] && y in s[n..]
      ensures LocationHeight(x) >= LocationHeight(y)
    {
      var i :| 0 <= i < n && s[..n][i] == x;
      var j :| 0 <= j < |s| - n && s[n..][j] == y;
      assert s[i] == x && s[n + j] == y;
    }
  }

  /** The first `MaxSamples` locations once they are ordered tallest first. */
  function Sample(locs: seq<Location>): (r: seq<Location>)
    ensures |r| == if |locs| < MaxSamples then |locs| else MaxSamples
    ensures TallestFirst(r)
  {
    var sorted := SortByHeight(locs);
    sorted[..if |sorted| < MaxSamples then |sorted| else MaxSamples]
  }

  /**
   * The sample is taken from the locations, and no location left out is
   * taller than one taken.
   */
  lemma SampleTakesTallest(locs: seq<Location>)
    ensures exists rest: seq<Location> :: multiset(locs) == multiset(Sample(locs)) + multiset(rest)
              && forall x, y :: x in Sample(locs) && y in rest ==> LocationHeight(x) >= LocationHeight(y)
  {
    var sorted := SortByHeight(locs);
    var n := if |sorted| < MaxSamples then |sorted| else MaxSamples;
    var r := sorted[..n];
    assert sorted == r + sorted[n..];
    TallestFirstSplit(sorted, n);
    assert Sample(locs) == r;
    assert multiset(locs) == multiset(r) + multiset(sorted[n..]);
  }

  // ---------------------------------------------------------------------------
  // Examining the sampled locations

  /**
   * One examined location: `None` when its page cannot be acquired, else the
   * engine's symbol for the crop of the box grown by `CropMargin`; an
   * exception in the engine gives the default character.
   */
  function OcrAt(l: Location, env: Env): (r: Option<string>)
    ensures r.None? <==> !env.acquire(l.page)
    ensures r.Some? && env.engine.Unrecognised? ==> r.value == ""
    ensures r.Some? && SelectedRaised(env.engine, env.tile(l.page, Expand(l.bbox, CropMargin))) ==> r.value == env.defaultChar
  {
    if !env.acquire(l.page) then None
    else Some(OcrCharacter(env.engine, env.defaultChar, env.tile(l.page, Expand(l.bbox, CropMargin))))
  }

  /** The symbols recorded for a list of examined locations: only non-empty ones, in order. */
  function Results(samples: seq<Location>, env: Env): (rs: seq<string>)
    ensures |rs| <= |samples|
    ensures forall i :: 0 <= i < |rs| ==> rs[i] != ""
  {
    if samples == [] then []
    else
      (match OcrAt(samples[0], env)
       case Some(s) => if s != "" then [s] else []
       case None => [])
      + Results(samples[1..], env)
  }

  /** A symbol is recorded exactly when some examined location's page was acquired and the engine gave it. */
  lemma {:induction false} ResultsMember(samples: seq<Location>, env: Env, s: string)
    ensures s in Results(samples, env) <==> s != "" && exists l :: l in samples && OcrAt(l, env) == Some(s)
  {
    if samples != [] {
      ResultsMember(samples[1..], env, s);
      assert forall l :: l in samples <==> l == samples[0] || l in samples[1..];
    }
  }

  /**
   * The answers are recorded in the order the locations are examined: the
   * answers for a concatenation are those of its parts, one after the other.
   */
  lemma {:induction false} ResultsAppend(a: seq<Location>, b: seq<Location>, env: Env)
    ensures Results(a + b, env) == Results(a, env) + Results(b, env)
  {
    if a != [] {
      var ab := a + b;
      assert ab[0] == a[0] && ab[1..] == a[1..] + b;
      var h := Results([a[0]], env);
      ResultsCons(ab, env);
      ResultsCons(a, env);
      calc {
        Results(ab, env);
        h + Results(a[1..] + b, env);
        { ResultsAppend(a[1..], b, env); }
        h + (Results(a[1..], env) + Results(b, env));
        (h + Results(a[1..], env)) + Results(b, env);
      }
    } else {
      assert a + b == b;
    }
  }

  lemma ResultsCons(s: seq<Location>, env: Env)
    requires s != []
    ensures Results(s, env) == Results([s[0]], env) + Results(s[1..], env)
  {
    assert [s[0]][1..] == [];
  }

  /** One examined location records its symbol when its page is acquired and the symbol is not empty. */
  lemma ResultsOfOne(l: Location, env: Env)
    ensures Results([l], env) == if OcrAt(l, env).Some? && OcrAt(l, env).value != "" then [OcrAt(l, env).value] else []
  {
    assert [l][1..] == [];
  }

  /** The pages a list of examined locations needs rendered. */
  function AcquiredPages(samples: seq<Location>, env: Env): set<nat> {
    set l | l in samples && env.acquire(l.page) :: l.page
  }

  /**
   * The loop of `_ocr_missing_glyph`, carrying the render cache. A location
   * whose page cannot be acquired is skipped before anything is rendered.
   */
  function OcrSamples(samples: seq<Location>, cache: Cache, env: Env): (r: (seq<string>, Cache))
    ensures r.0 == Results(samples, env)
    ensures Valid(cache) ==> Valid(r.1)
    ensures forall p :: p in Pages(r.1) <==> p in Pages(cache) || p in AcquiredPages(samples, env)
    decreases |samples|
  {
    if samples == [] then ([], cache)
    else
      var l := samples[0];
      assert AcquiredPages(samples, env) == (if env.acquire(l.page) then {l.page} else {}) + AcquiredPages(samples[1..], env);
      if !env.acquire(l.page) then OcrSamples(samples[1..], cache, env)
      else
        var cache' := GetPageRender(cache, l.page).1;
        var s := OcrCharacter(env.engine, env.defaultChar, env.tile(l.page, Expand(l.bbox, CropMargin)));
        var rest := OcrSamples(samples[1..], cache', env);
        ((if s != "" then [s] else []) + rest.0, rest.1)
  }

  // ---------------------------------------------------------------------------
  // The vote

  /** `results.count` as the key Python's `max` compares. */
  function Votes(results: seq<string>): string -> real {
    s => Count(results, s) as real
  }

  /**
   * The default character when nothing was recorded; otherwise
   * `max(results, key=results.count)`: the most frequent symbol, the one
   * seen first among equally frequent ones.
   */
  function Decide(results: seq<string>, default: string): (r: string)
    ensures results == [] ==> r == default
    ensures results != [] ==> exists i :: IsFirstMax(results, Votes(results), i) && r == results[i]
  {
    if |results| == 0 then default else results[MaxIndex(results, Votes(results))]
  }

  /** A symbol recorded more often than all others together is chosen. */
  lemma MajorityWins(results: seq<string>, default: string, s: string)
    requires 2 * Count(results, s) > |results|
    ensures Decide(results, default) == s
  {
    assert s in multiset(results);
    var k :| 0 <= k < |results| && results[k] == s;
    var i := MaxIndex(results, Votes(results));
    assert Votes(results)(results[k]) <= Votes(results)(results[i]);
    if results[i] != s {
      CountsOfTwoValues(results, results[i], s);
    }
  }

  /** The symbol chosen was recorded, and no other was recorded more often. */
  lemma DecideIsMostFrequent(results: seq<string>, default: string, s: string)
    requires s in results
    ensures Decide(results, default) in results
    ensures Count(results, s) <= Count(results, Decide(results, default))
  {
    var k :| 0 <= k < |results| && results[k] == s;
    var i := MaxIndex(results, Votes(results));
    assert Votes(results)(results[k]) <= Votes(results)(results[i]);
  }

  // ---------------------------------------------------------------------------
  // One glyph, and all of them

  /**
   * The symbol a glyph resolves to, independent of the render cache: the
   * default character when no examined location recorded anything,
   * otherwise one of the recorded answers.
   */
  function Resolution(g: MissingGlyph, env: Env): (r: string)
    ensures Results(Sample(g.locations), env) == [] ==> r == env.defaultChar
    ensures Results(Sample(g.locations), env) != [] ==> r in Results(Sample(g.locations), env)
  {
    var rs := Results(Sample(g.locations), env);
    assert rs != [] ==> Decide(rs, env.defaultChar) in rs by {
      if rs != [] { DecideIsMostFrequent(rs, env.defaultChar, rs[0]); }
    }
    Decide(rs, env.defaultChar)
  }

  /** No answer recorded for a glyph was recorded more often than the one it resolves to. */
  lemma ResolutionIsMostFrequent(g: MissingGlyph, env: Env, s: string)
    requires s in Results(Sample(g.locations), env)
    ensures Count(Results(Sample(g.locations), env), s) <= Count(Results(Sample(g.locations), env), Resolution(g, env))
  {
    DecideIsMostFrequent(Results(Sample(g.locations), env), env.defaultChar, s);
  }

  /**
   * A location whose page cannot be acquired still takes one of the
   * `MaxSamples` places: when none of the tallest locations' pages can be
   * acquired, the glyph gets the default character whatever its other
   * locations would give.
   */
  lemma UnacquiredSamplesFallBack(g: MissingGlyph, env: Env)
    requires forall l :: l in Sample(g.locations) ==> !env.acquire(l.page)
    ensures Resolution(g, env) == env.defaultChar
  {
    NothingRecorded(Sample(g.locations), env);
  }

  lemma {:induction false} NothingRecorded(samples: seq<Location>, env: Env)
    requires forall l :: l in samples ==> !env.acquire(l.page)
    ensures Results(samples, env) == []
  {
    if samples != [] {
      NothingRecorded(samples[1..], env);
    }
  }

  /**
   * With a non-empty default character, a location whose configured engine
   * raised still casts a vote, for the default character.
   */
  lemma {:induction false} RaisedVotesForDefault(samples: seq<Location>, env: Env)
    requires env.defaultChar != ""
    requires forall l :: l in samples ==> env.acquire(l.page)
                                          && SelectedRaised(env.engine, env.tile(l.page, Expand(l.bbox, CropMargin)))
    ensures Results(samples, env) == seq(|samples|, _ => env.defaultChar)
  {
    if samples != [] {
      RaisedVotesForDefault(samples[1..], env);
    }
  }

  /**
   * An engine that raises on every crop resolves every glyph found at least
   * once to the default character (when that is not empty).
   */
  lemma RaisingEngineGivesDefault(g: MissingGlyph, env: Env)
    requires g.locations != [] && env.defaultChar != ""
    requires forall p :: env.acquire(p)
    requires forall p, b :: SelectedRaised(env.engine, env.tile(p, b))
    ensures Resolution(g, env) == env.defaultChar
  {
    var sample := Sample(g.locations);
    RaisedVotesForDefault(sample, env);
    var rs := Results(sample, env);
    assert rs[0] == env.defaultChar;
    assert Count(rs, env.defaultChar) == |rs| by {
      assert rs == seq(|rs|, _ => env.defaultChar);
      AllSameCount(rs, env.defaultChar);
    }
    MajorityWins(rs, env.defaultChar, env.defaultChar);
  }

  lemma {:induction false} AllSameCount(xs: seq<string>, x: string)
    requires forall i :: 0 <= i < |xs| ==> xs[i] == x
    ensures Count(xs, x) == |xs|
  {
    if xs != [] {
      AllSameCount(xs[1..], x);
      assert xs == [xs[0]] + xs[1..];
    }
  }

  /** `_ocr_missing_glyph` after the sort: the chosen symbol and the cache afterwards. */
  function ResolveGlyph(g: MissingGlyph, cache: Cache, env: Env): (r: (string, Cache))
    ensures r.0 == Resolution(g, env)
    ensures Valid(cache) ==> Valid(r.1)
    ensures forall p :: p in Pages(r.1) <==> p in Pages(cache) || p in AcquiredPages(Sample(g.locations), env)
  {
    var out := OcrSamples(Sample(g.locations), cache, env);
    (Decide(out.0, env.defaultChar), out.1)
  }

  /** One call of `SetUnicodeForCharcode` and whether the SDK accepted it. */
  datatype Assignment = Assignment(font: Font, code: nat, symbol: string, accepted: bool)

  /** The pages rendered for the entries of a table. */
  ghost predicate NeededPage<K>(t: Table<K>, env: Env, p: nat) {
    exists i :: 0 <= i < |t| && p in AcquiredPages(Sample(t[i].glyph.locations), env)
  }

  /**
   * `_process_all_missing_occurences`: one assignment per dictionary entry,
   * in iteration order; a rejected assignment does not stop the others.
   */
  function ResolveAll<K>(t: Table<K>, cache: Cache, env: Env): (r: (seq<Assignment>, Cache))
    ensures |r.0| == |t|
    ensures forall i :: 0 <= i < |t| ==> r.0[i] == Written(t[i].glyph, env)
    ensures Valid(cache) ==> Valid(r.1)
    decreases |t|
  {
    if t == [] then ([], cache)
    else
      var g := t[0].glyph;
      var one := ResolveGlyph(g, cache, env);
      var rest := ResolveAll(t[1..], one.1, env);
      ([Assignment(g.font, g.code, one.0, env.setUnicode(g.font, g.code, one.0))] + rest.0, rest.1)
  }

  /** The assignment made for a glyph: its own font and code, its resolution, and the SDK's answer. */
  function Written(g: MissingGlyph, env: Env): Assignment {
    Assignment(g.font, g.code, Resolution(g, env), env.setUnicode(g.font, g.code, Resolution(g, env)))
  }

  /** Every entry of a grouped table is filed under the key of its own font and code. */
  ghost predicate KeyedByGlyph<K>(t: Table<K>, keyOf: (Font, nat) -> K) {
    forall i :: 0 <= i < |t| ==> t[i].key == keyOf(t[i].glyph.font, t[i].glyph.code)
  }

  lemma {:induction false} RecordKeyedByGlyph<K>(t: Table<K>, keyOf: (Font, nat) -> K, font: Font, code: nat, loc: Location)
    requires KeyedByGlyph(t, keyOf)
    ensures KeyedByGlyph(Record(t, keyOf(font, code), font, code, loc), keyOf)
  {
    if t != [] && t[0].key != keyOf(font, code) {
      RecordKeyedByGlyph(t[1..], keyOf, font, code, loc);
      var r := Record(t, keyOf(font, code), font, code, loc);
      assert r == [t[0]] + Record(t[1..], keyOf(font, code), font, code, loc);
    }
  }

  lemma {:induction false} GroupKeyedByGlyph<K>(t: Table<K>, keyOf: (Font, nat) -> K, occs: seq<Occurrence>)
    requires KeyedByGlyph(t, keyOf)
    ensures KeyedByGlyph(Group(t, keyOf, occs), keyOf)
    decreases |occs|
  {
    if occs != [] {
      var o := occs[0];
      RecordKeyedByGlyph(t, keyOf, o.font, o.code, o.location);
      GroupKeyedByGlyph(Record(t, keyOf(o.font, o.code), o.font, o.code, o.location), keyOf, occs[1..]);
    }
  }

  /**
   * Whatever the key, a run assigns each (font, code) pair at most once:
   * every entry is filed under its own pair's key, and keys are distinct.
   */
  lemma EachGlyphAssignedOnce<K>(doc: Document, keyOf: (Font, nat) -> K, env: Env)
    requires !PagesRaise(doc, 0)
    ensures Run(doc, keyOf, env).Some?
    ensures var a := Run(doc, keyOf, env).value.assignments;
            forall i, j :: 0 <= i < j < |a| ==> (a[i].font, a[i].code) != (a[j].font, a[j].code)
  {
    var t := Group([], keyOf, Occurrences(doc));
    GroupKeyedByGlyph([], keyOf, Occurrences(doc));
    assert DistinctKeys(t);
  }

  /**
   * With a key that never merges two (font, code) pairs, every pair some
   * flagged character has is assigned a symbol.
   */
  lemma InjectiveKeyAssignsEveryGlyph<K>(doc: Document, keyOf: (Font, nat) -> K, env: Env, font: Font, code: nat)
    requires Injective(keyOf)
    requires !PagesRaise(doc, 0)
    requires OfGlyph(Occurrences(doc), font, code) != []
    ensures Run(doc, keyOf, env).Some?
    ensures var a := Run(doc, keyOf, env).value.assignments;
            exists i :: 0 <= i < |a| && a[i].font == font && a[i].code == code
  {
    ScanIsGroup(doc, keyOf);
    InjectiveKeySeparatesGlyphs(doc, keyOf, font, code);
    var t := Group([], keyOf, Occurrences(doc));
    var g := MissingGlyph(font, code, LocationsOf(OfGlyph(Occurrences(doc), font, code)));
    assert Lookup(t, keyOf(font, code)) == Some(g);
    var i :| 0 <= i < |t| && t[i].key == keyOf(font, code) && t[i].glyph == g;
    var a := Run(doc, keyOf, env).value.assignments;
    assert a[i] == Written(g, env);
  }

  lemma {:induction false} NeededPageCons<K>(t: Table<K>, env: Env, p: nat)
    requires t != []
    ensures NeededPage(t, env, p) <==> p in AcquiredPages(Sample(t[0].glyph.locations), env) || NeededPage(t[1..], env, p)
  {
    if NeededPage(t[1..], env, p) {
      var i :| 0 <= i < |t[1..]| && p in AcquiredPages(Sample(t[1..][i].glyph.locations), env);
      assert t[i + 1] == t[1..][i];
    }
    if NeededPage(t, env, p) {
      var i :| 0 <= i < |t| && p in AcquiredPages(Sample(t[i].glyph.locations), env);
      if i > 0 {
        assert t[1..][i - 1] == t[i];
      }
    }
  }

  /**
   * The pages rendered while resolving a table are those already cached plus
   * every page of a sampled location that could be acquired.
   */
  lemma {:induction false} ResolveAllRenders<K>(t: Table<K>, cache: Cache, env: Env, p: nat)
    ensures p in Pages(ResolveAll(t, cache, env).1) <==> p in Pages(cache) || NeededPage(t, env, p)
    decreases |t|
  {
    if t != [] {
      var one := ResolveGlyph(t[0].glyph, cache, env);
      ResolveAllRenders(t[1..], one.1, env, p);
      NeededPageCons(t, env, p);
    }
  }

  // ---------------------------------------------------------------------------
  // The whole run

  /** What a run leaves behind: the assignments, the pages rendered, the files removed. */
  datatype RunOutcome = RunOutcome(assignments: seq<Assignment>, rendered: seq<nat>, removed: seq<TempPath>)

  /**
   * `fix_missing_unicode` between opening and saving the document: scan,
   * resolve every entry, then remove the rendered pages. `None` is the
   * exception a decoded text of two or more characters raises during the scan.
   */
  function Run<K(==)>(doc: Document, keyOf: (Font, nat) -> K, env: Env): (r: Option<RunOutcome>)
    ensures r.None? <==> PagesRaise(doc, 0)
    ensures r.Some? ==> |r.value.assignments| == |Group([], keyOf, Occurrences(doc))|
    ensures r.Some? ==> forall i :: 0 <= i < |r.value.assignments| ==>
              r.value.assignments[i] == Written(Group([], keyOf, Occurrences(doc))[i].glyph, env)
    ensures r.Some? ==> forall i, j :: 0 <= i < j < |r.value.rendered| ==> r.value.rendered[i] != r.value.rendered[j]
    ensures r.Some? ==> |r.value.removed| == |r.value.rendered|
    ensures r.Some? ==> forall i, j :: 0 <= i < j < |r.value.removed| ==> r.value.removed[i] != r.value.removed[j]
    // the i-th file removed is the fresh file made for the i-th page rendered
    ensures r.Some? ==> forall i :: 0 <= i < |r.value.removed| ==> r.value.removed[i] == TempPath(r.value.rendered[i], i)
  {
    ScanIsGroup(doc, keyOf);
    match Scan(doc, keyOf)
    case None => None
    case Some(t) =>
      var resolved := ResolveAll(t, Empty, env);
      Some(RunOutcome(resolved.0, Pages(resolved.1), CleanUp(resolved.1)))
  }

  /** The pages a run renders are exactly the acquirable pages of the sampled locations. */
  lemma RunRenders<K>(doc: Document, keyOf: (Font, nat) -> K, env: Env, p: nat)
    requires !PagesRaise(doc, 0)
    ensures Run(doc, keyOf, env).Some?
    ensures p in Run(doc, keyOf, env).value.rendered <==> NeededPage(Group([], keyOf, Occurrences(doc)), env, p)
  {
    ScanIsGroup(doc, keyOf);
    ResolveAllRenders(Group([], keyOf, Occurrences(doc)), Empty, env, p);
  }
}

=== FILE: scanner.dfy ===
/**
 * The occurrence scan `_gather_all_missing_occurences` of
 * src/fixmissingunicode.py, over an abstract document: a sequence of pages,
 * each page a sequence of content objects, each text object a font and its
 * characters. The scan is generic in the function that turns a (font, code)
 * pair into a dictionary key.
 */
module Scanner {
  import opened Wrappers
  import opened Geometry
  import opened Glyphs

  /** One character of a text object: its code, its decoded text and its box. */
  datatype CharInfo = CharInfo(code: nat, text: string, bbox: BBox)

  /**
   * A content object: a text object with the font of its text state (absent
   * font is `None`), any other kind of object, or one the SDK failed to return.
   */
  datatype PageObject =
    | TextObject(font: Option<Font>, chars: seq<CharInfo>)
    | OtherObject
    | UnavailableObject

  /** A page that failed to be acquired, or an acquired page and its content (`None` when that fails). */
  datatype Page = Unavailable | Available(content: Option<seq<PageObject>>)

  type Document = seq<Page>

  /** A character the scan flags: where it was found, and in which font under which code. */
  datatype Occurrence = Occurrence(font: Font, code: nat, location: Location)

  /** A text object whose font is present and embedded: the only objects whose characters are examined. */
  predicate EditableText(obj: PageObject) {
    obj.TextObject? && obj.font.Some? && obj.font.value.embedded
  }

  /** The objects of page `p`, when the page and its content can be acquired. */
  predicate Readable(doc: Document, p: int) {
    0 <= p < |doc| && doc[p].Available? && doc[p].content.Some?
  }

  // ---------------------------------------------------------------------------
  // The scan, loop by loop. `None` means the run ended with an exception.

  /** `r` keeps every entry of `t` in its place, with its key, and may add entries after them. */
  predicate KeepsKeys<K(==)>(t: Table<K>, r: Table<K>) {
    |r| >= |t| && forall i :: 0 <= i < |t| ==> r[i].key == t[i].key
  }

  /**
   * The loop over the characters of one text object: it raises exactly when
   * some character's text is too long for `ord`; otherwise keys already in
   * the dictionary keep their places and stay distinct.
   */
  function ScanChars<K(==)>(t: Table<K>, keyOf: (Font, nat) -> K, font: Font, page: nat, cs: seq<CharInfo>): (r: Option<Table<K>>)
    ensures r.None? <==> TextRaises(cs)
    ensures r.Some? ==> KeepsKeys(t, r.value)
    ensures r.Some? && DistinctKeys(t) ==> DistinctKeys(r.value)
    decreases |cs|
  {
    if cs == [] then Some(t)
    else
      TextRaisesCons(cs);
      match ShouldCharBeOcr(cs[0].text)
      case None => None
      case Some(flagged) =>
        var t' := if flagged then Record(t, keyOf(font, cs[0].code), font, cs[0].code, Location(page, cs[0].bbox)) else t;
        ScanChars(t', keyOf, font, page, cs[1..])
  }

  /**
   * The loop over the objects of one page's content: it raises exactly when
   * some embedded-font text object has a text too long for `ord`.
   */
  function ScanObjects<K(==)>(t: Table<K>, keyOf: (Font, nat) -> K, page: nat, objs: seq<PageObject>): (r: Option<Table<K>>)
    ensures r.None? <==> ObjectsRaise(objs)
    ensures r.Some? ==> KeepsKeys(t, r.value)
    ensures r.Some? && DistinctKeys(t) ==> DistinctKeys(r.value)
    decreases |objs|
  {
    if objs == [] then Some(t)
    else
      ObjectsRaiseCons(objs);
      if !EditableText(objs[0]) then ScanObjects(t, keyOf, page, objs[1..])
      else
        match ScanChars(t, keyOf, objs[0].font.value, page, objs[0].chars)
        case None => None
        case Some(t') => ScanObjects(t', keyOf, page, objs[1..])
  }

  /**
   * The loop over the pages, from page `p` on: it raises exactly when some
   * readable page from `p` on has such a text object.
   */
  function ScanPages<K(==)>(t: Table<K>, keyOf: (Font, nat) -> K, doc: Document, p: nat): (r: Option<Table<K>>)
    requires p <= |doc|
    ensures r.None? <==> PagesRaise(doc, p)
    ensures r.Some? ==> KeepsKeys(t, r.value)
    ensures r.Some? && DistinctKeys(t) ==> DistinctKeys(r.value)
    decreases |doc| - p
  {
    assert p < |doc| ==> (PagesRaise(doc, p) <==> (Readable(doc, p) && ObjectsRaise(doc[p].content.value)) || PagesRaise(doc, p + 1));
    if p == |doc| then Some(t)
    else if !Readable(doc, p) then ScanPages(t, keyOf, doc, p + 1)
    else
      match ScanObjects(t, keyOf, p, doc[p].content.value)
      case None => None
      case Some(t') => ScanPages(t', keyOf, doc, p + 1)
  }

  /**
   * `_gather_all_missing_occurences`: it raises exactly when some examined
   * text is too long for `ord`, and otherwise returns a dictionary with
   * distinct keys.
   */
  function Scan<K(==)>(doc: Document, keyOf: (Font, nat) -> K): (r: Option<Table<K>>)
    ensures r.None? <==> PagesRaise(doc, 0)
    ensures r.Some? ==> DistinctKeys(r.value)
  {
    ScanPages([], keyOf, doc, 0)
  }

  // ---------------------------------------------------------------------------
  // Reference: the flagged characters in discovery order, and their grouping

  function CharOccurrences(font: Font, page: nat, cs: seq<CharInfo>): seq<Occurrence> {
    if cs == [] then []
    else
      (if ShouldCharBeOcr(cs[0].text) == Some(true) then [Occurrence(font, cs[0].code, Location(page, cs[0].bbox))] else [])
      + CharOccurrences(font, page, cs[1..])
  }

  function ObjectOccurrences(page: nat, objs: seq<PageObject>): seq<Occurrence> {
    if objs == [] then []
    else
      (if EditableText(objs[0]) then CharOccurrences(objs[0].font.value, page, objs[0].chars) else [])
      + ObjectOccurrences(page, objs[1..])
  }

  function PageOccurrences(doc: Document, p: nat): seq<Occurrence>
    requires p <= |doc|
    decreases |doc| - p
  {
    if p == |doc| then []
    else (if Readable(doc, p) then ObjectOccurrences(p, doc[p].content.value) else []) + PageOccurrences(doc, p + 1)
  }

  /** Every flagged character of an embedded font on a readable page, in discovery order. */
  function Occurrences(doc: Document): seq<Occurrence> {
    PageOccurrences(doc, 0)
  }

  /** Some character's decoded text is too long for `ord`. */
  predicate TextRaises(cs: seq<CharInfo>) {
    exists c :: 0 <= c < |cs| && |cs[c].text| >= 2
  }

  predicate ObjectsRaise(objs: seq<PageObject>) {
    exists j :: 0 <= j < |objs| && EditableText(objs[j]) && TextRaises(objs[j].chars)
  }

  predicate PagesRaise(doc: Document, p: nat) {
    exists q :: p <= q < |doc| && Readable(doc, q) && ObjectsRaise(doc[q].content.value)
  }

  lemma TextRaisesCons(cs: seq<CharInfo>)
    requires cs != []
    ensures TextRaises(cs) <==> |cs[0].text| >= 2 || TextRaises(cs[1..])
  {
    if TextRaises(cs[1..]) {
      var c :| 0 <= c < |cs[1..]| && |cs[1..][c].text| >= 2;
      assert |cs[c + 1].text| >= 2;
    }
    if TextRaises(cs) && |cs[0].text| < 2 {
      var c :| 0 <= c < |cs| && |cs[c].text| >= 2;
      assert |cs[1..][c - 1].text| >= 2;
    }
  }

  lemma ObjectsRaiseCons(objs: seq<PageObject>)
    requires objs != []
    ensures ObjectsRaise(objs) <==> (EditableText(objs[0]) && TextRaises(objs[0].chars)) || ObjectsRaise(objs[1..])
  {
    if ObjectsRaise(objs[1..]) {
      var j :| 0 <= j < |objs[1..]| && EditableText(objs[1..][j]) && TextRaises(objs[1..][j].chars);
      assert objs[j + 1] == objs[1..][j];
    }
    if ObjectsRaise(objs) && !(EditableText(objs[0]) && TextRaises(objs[0].chars)) {
      var j :| 0 <= j < |objs| && EditableText(objs[j]) && TextRaises(objs[j].chars);
      assert objs[1..][j - 1] == objs[j];
    }
  }

  /** Adds each occurrence to the dictionary under its key, in order. */
  function Group<K(==)>(t: Table<K>, keyOf: (Font, nat) -> K, occs: seq<Occurrence>): (r: Table<K>)
    ensures DistinctKeys(t) ==> DistinctKeys(r)
    ensures |r| >= |t|
    decreases |occs|
  {
    if occs == [] then t
    else Group(Record(t, keyOf(occs[0].font, occs[0].code), occs[0].font, occs[0].code, occs[0].location), keyOf, occs[1..])
  }

  lemma {:induction false} GroupAppend<K>(t: Table<K>, keyOf: (Font, nat) -> K, a: seq<Occurrence>, b: seq<Occurrence>)
    ensures Group(t, keyOf, a + b) == Group(Group(t, keyOf, a), keyOf, b)
    decreases |a|
  {
    if a != [] {
      var o := a[0];
      assert (a + b)[0] == o && (a + b)[1..] == a[1..] + b;
      GroupAppend(Record(t, keyOf(o.font, o.code), o.font, o.code, o.location), keyOf, a[1..], b);
    } else {
      assert a + b == b;
    }
  }

  // ---------------------------------------------------------------------------
  // The scan is the grouping of the reference occurrences, unless it raises

  lemma {:induction false} ScanCharsIsGroup<K>(t: Table<K>, keyOf: (Font, nat) -> K, font: Font, page: nat, cs: seq<CharInfo>)
    ensures ScanChars(t, keyOf, font, page, cs)
         == if TextRaises(cs) then None else Some(Group(t, keyOf, CharOccurrences(font, page, cs)))
    decreases |cs|
  {
    if cs != [] {
      TextRaisesCons(cs);
      match ShouldCharBeOcr(cs[0].text)
      case None =>
      case Some(flagged) =>
        var o := Occurrence(font, cs[0].code, Location(page, cs[0].bbox));
        var t' := if flagged then Record(t, keyOf(font, cs[0].code), font, cs[0].code, Location(page, cs[0].bbox)) else t;
        ScanCharsIsGroup(t', keyOf, font, page, cs[1..]);
        var rest := CharOccurrences(font, page, cs[1..]);
        if flagged {
          assert CharOccurrences(font, page, cs) == [o] + rest;
          GroupAppend(t, keyOf, [o], rest);
          assert Group(t, keyOf, [o]) == Group(t', keyOf, []);
        } else {
          assert CharOccurrences(font, page, cs) == [] + rest == rest;
        }
    }
  }

  lemma {:induction false} ScanObjectsIsGroup<K>(t: Table<K>, keyOf: (Font, nat) -> K, page: nat, objs: seq<PageObject>)
    ensures ScanObjects(t, keyOf, page, objs)
         == if ObjectsRaise(objs) then None else Some(Group(t, keyOf, ObjectOccurrences(page, objs)))
    decreases |objs|
  {
    if objs != [] {
      var head := EditableText(objs[0]) && TextRaises(objs[0].chars);
      ObjectsRaiseCons(objs);
      if !EditableText(objs[0]) {
        assert ObjectOccurrences(page, objs) == [] + ObjectOccurrences(page, objs[1..]) == ObjectOccurrences(page, objs[1..]);
        ScanObjectsIsGroup(t, keyOf, page, objs[1..]);
      } else {
        var font := objs[0].font.value;
        var here := CharOccurrences(font, page, objs[0].chars);
        ScanCharsIsGroup(t, keyOf, font, page, objs[0].chars);
        if !TextRaises(objs[0].chars) {
          ScanObjectsIsGroup(Group(t, keyOf, here), keyOf, page, objs[1..]);
          GroupAppend(t, keyOf, here, ObjectOccurrences(page, objs[1..]));
        }
      }
    }
  }

  lemma {:induction false} ScanPagesIsGroup<K>(t: Table<K>, keyOf: (Font, nat) -> K, doc: Document, p: nat)
    requires p <= |doc|
    ensures ScanPages(t, keyOf, doc, p)
         == if PagesRaise(doc, p) then None else Some(Group(t, keyOf, PageOccurrences(doc, p)))
    decreases |doc| - p
  {
    if p < |doc| {
      var head := Readable(doc, p) && ObjectsRaise(doc[p].content.value);
      assert PagesRaise(doc, p) <==> head || PagesRaise(doc, p + 1);
      if !Readable(doc, p) {
        assert PageOccurrences(doc, p) == [] + PageOccurrences(doc, p + 1) == PageOccurrences(doc, p + 1);
        ScanPagesIsGroup(t, keyOf, doc, p + 1);
      } else {
        var here := ObjectOccurrences(p, doc[p].content.value);
        ScanObjectsIsGroup(t, keyOf, p, doc[p].content.value);
        if !ObjectsRaise(doc[p].content.value) {
          ScanPagesIsGroup(Group(t, keyOf, here), keyOf, doc, p + 1);
          GroupAppend(t, keyOf, here, PageOccurrences(doc, p + 1));
        }
      }
    }
  }

  /**
   * The scan ends in an exception exactly when some examined character has a
   * decoded text of two or more characters; otherwise its dictionary is the
   * grouping of the flagged characters in discovery order.
   */
  lemma ScanIsGroup<K>(doc: Document, keyOf: (Font, nat) -> K)
    ensures Scan(doc, keyOf) == if PagesRaise(doc, 0) then None else Some(Group([], keyOf, Occurrences(doc)))
  {
    ScanPagesIsGroup([], keyOf, doc, 0);
  }

  // ---------------------------------------------------------------------------
  // What the grouping files under each key

  /** The occurrences whose key is `k`, in order. */
  function WithKey<K(==)>(keyOf: (Font, nat) -> K, occs: seq<Occurrence>, k: K): seq<Occurrence> {
    if occs == [] then []
    else (if keyOf(occs[0].font, occs[0].code) == k then [occs[0]] else []) + WithKey(keyOf, occs[1..], k)
  }

  /** The occurrences of char code `code` in font `font`, in order. */
  function OfGlyph(occs: seq<Occurrence>, font: Font, code: nat): seq<Occurrence> {
    if occs == [] then []
    else (if occs[0].font == font && occs[0].code == code then [occs[0]] else []) + OfGlyph(occs[1..], font, code)
  }

  function LocationsOf(occs: seq<Occurrence>): (locs: seq<Location>)
    ensures |locs| == |occs|
    ensures forall i :: 0 <= i < |occs| ==> locs[i] == occs[i].location
  {
    if occs == [] then [] else [occs[0].location] + LocationsOf(occs[1..])
  }

  /** An entry after the occurrences `w` were filed under its key. */
  function Extend(g: Option<MissingGlyph>, w: seq<Occurrence>): Option<MissingGlyph> {
    if w == [] then g
    else
      match g
      case None => Some(MissingGlyph(w[0].font, w[0].code, LocationsOf(w)))
      case Some(g) => Some(g.(locations := g.locations + LocationsOf(w)))
  }

  /** Filing one occurrence and then more is filing them all at once. */
  lemma ExtendAppended(g: Option<MissingGlyph>, o: Occurrence, w: seq<Occurrence>)
    ensures Extend(Some(Appended(g, o.font, o.code, o.location)), w) == Extend(g, [o] + w)
  {
    var ow := [o] + w;
    assert ow[0] == o && ow[1..] == w;
    assert LocationsOf(ow) == [o.location] + LocationsOf(w);
    match g
    case None =>
      var first := MissingGlyph(o.font, o.code, [o.location]);
      if w == [] {
        assert LocationsOf(ow) == [o.location];
        assert Extend(g, ow) == Some(first);
        assert Extend(Some(first), w) == Some(first);
      } else {
        assert Extend(Some(first), w) == Some(MissingGlyph(o.font, o.code, [o.location] + LocationsOf(w)));
      }
    case Some(h) =>
      if w == [] {
        assert LocationsOf(ow) == [o.location];
        assert Extend(g, ow) == Some(h.(locations := h.locations + [o.location]));
      } else {
        assert h.locations + [o.location] + LocationsOf(w) == h.locations + ([o.location] + LocationsOf(w));
      }
  }

  lemma {:induction false} GroupLookup<K>(t: Table<K>, keyOf: (Font, nat) -> K, occs: seq<Occurrence>, k: K)
    ensures Lookup(Group(t, keyOf, occs), k) == Extend(Lookup(t, k), WithKey(keyOf, occs, k))
    decreases |occs|
  {
    if occs != [] {
      var o := occs[0];
      var t' := Record(t, keyOf(o.font, o.code), o.font, o.code, o.location);
      var w := WithKey(keyOf, occs[1..], k);
      assert Group(t, keyOf, occs) == Group(t', keyOf, occs[1..]);
      GroupLookup(t', keyOf, occs[1..], k);
      RecordThenExtend(t, keyOf, o, w, k);
      assert WithKey(keyOf, occs, k) == (if keyOf(o.font, o.code) == k then [o] else []) + w;
    }
  }

  /** Recording one occurrence and then extending by the rest is extending by both. */
  lemma RecordThenExtend<K>(t: Table<K>, keyOf: (Font, nat) -> K, o: Occurrence, w: seq<Occurrence>, k: K)
    ensures Extend(Lookup(Record(t, keyOf(o.font, o.code), o.font, o.code, o.location), k), w)
         == Extend(Lookup(t, k), (if keyOf(o.font, o.code) == k then [o] else []) + w)
  {
    var ko := keyOf(o.font, o.code);
    if ko == k {
      RecordLookup(t, ko, o.font, o.code, o.location);
      ExtendAppended(Lookup(t, k), o, w);
    } else {
      RecordLookupOther(t, ko, o.font, o.code, o.location, k);
      assert [] + w == w;
    }
  }

  /**
   * The dictionary of a scan that did not raise: under each key, the first
   * flagged character with that key fixes the glyph's font and code, and
   * every flagged character with that key adds one location, in discovery
   * order. A key no flagged character produces is absent.
   */
  lemma ScannedGlyph<K>(doc: Document, keyOf: (Font, nat) -> K, k: K)
    requires !PagesRaise(doc, 0)
    ensures Scan(doc, keyOf).Some?
    ensures var w := WithKey(keyOf, Occurrences(doc), k);
            Lookup(Scan(doc, keyOf).value, k)
            == if w == [] then None else Some(MissingGlyph(w[0].font, w[0].code, LocationsOf(w)))
  {
    ScanIsGroup(doc, keyOf);
    GroupLookup([], keyOf, Occurrences(doc), k);
  }

  /** Every entry of a scanned dictionary has its own key and at least one location. */
  lemma ScannedTableWellFormed<K>(doc: Document, keyOf: (Font, nat) -> K)
    requires !PagesRaise(doc, 0)
    ensures Scan(doc, keyOf).Some?
    ensures DistinctKeys(Scan(doc, keyOf).value)
    ensures forall i :: 0 <= i < |Scan(doc, keyOf).value| ==> |Scan(doc, keyOf).value[i].glyph.locations| >= 1
  {
    ScanIsGroup(doc, keyOf);
    var t := Scan(doc, keyOf).value;
    forall i | 0 <= i < |t|
      ensures |t[i].glyph.locations| >= 1
    {
      LookupEntry(t, i);
      ScannedGlyph(doc, keyOf, t[i].key);
    }
  }

  lemma {:induction false} InjectiveWithKey<K>(keyOf: (Font, nat) -> K, occs: seq<Occurrence>, font: Font, code: nat)
    requires Injective(keyOf)
    ensures WithKey(keyOf, occs, keyOf(font, code)) == OfGlyph(occs, font, code)
  {
    if occs != [] {
      InjectiveWithKey(keyOf, occs[1..], font, code);
    }
  }

  lemma {:induction false} OfGlyphMatches(occs: seq<Occurrence>, font: Font, code: nat)
    ensures forall o :: o in OfGlyph(occs, font, code) ==> o.font == font && o.code == code
  {
    if occs != [] {
      OfGlyphMatches(occs[1..], font, code);
    }
  }

  /**
   * With a key that never merges two (font, code) pairs, the entry for a pair
   * holds exactly that pair's occurrences, and its font and code are the
   * pair's own.
   */
  lemma InjectiveKeySeparatesGlyphs<K>(doc: Document, keyOf: (Font, nat) -> K, font: Font, code: nat)
    requires Injective(keyOf)
    requires !PagesRaise(doc, 0)
    ensures Scan(doc, keyOf).Some?
    ensures var w := OfGlyph(Occurrences(doc), font, code);
            Lookup(Scan(doc, keyOf).value, keyOf(font, code))
            == if w == [] then None else Some(MissingGlyph(font, code, LocationsOf(w)))
  {
    ScannedGlyph(doc, keyOf, keyOf(font, code));
    InjectiveWithKey(keyOf, Occurrences(doc), font, code);
    OfGlyphMatches(Occurrences(doc), font, code);
  }

  // ---------------------------------------------------------------------------
  // Which characters become occurrences

  lemma {:induction false} CharOccurrencesMember(font: Font, page: nat, cs: seq<CharInfo>, o: Occurrence)
    ensures o in CharOccurrences(font, page, cs) <==>
            exists c :: 0 <= c < |cs| && ShouldCharBeOcr(cs[c].text) == Some(true)
                        && o == Occurrence(font, cs[c].code, Location(page, cs[c].bbox))
  {
    if cs != [] {
      CharOccurrencesMember(font, page, cs[1..], o);
      var rest := CharOccurrences(font, page, cs[1..]);
      assert o in CharOccurrences(font, page, cs) <==>
             (ShouldCharBeOcr(cs[0].text) == Some(true) && o == Occurrence(font, cs[0].code, Location(page, cs[0].bbox)))
             || o in rest;
      if o in rest {
        var c :| 0 <= c < |cs[1..]| && ShouldCharBeOcr(cs[1..][c].text) == Some(true)
                 && o == Occurrence(font, cs[1..][c].code, Location(page, cs[1..][c].bbox));
        assert cs[c + 1] == cs[1..][c];
      }
      if exists c :: 0 <= c < |cs| && ShouldCharBeOcr(cs[c].text) == Some(true)
                     && o == Occurrence(font, cs[c].code, Location(page, cs[c].bbox)) {
        var c :| 0 <= c < |cs| && ShouldCharBeOcr(cs[c].text) == Some(true)
                 && o == Occurrence(font, cs[c].code, Location(page, cs[c].bbox));
        if c > 0 {
          assert cs[1..][c - 1] == cs[c];
        }
      }
    }
  }

  lemma {:induction false} ObjectOccurrencesMember(page: nat, objs: seq<PageObject>, o: Occurrence)
    ensures o in ObjectOccurrences(page, objs) <==>
            exists j :: 0 <= j < |objs| && EditableText(objs[j]) && o in CharOccurrences(objs[j].font.value, page, objs[j].chars)
  {
    if objs != [] {
      ObjectOccurrencesMember(page, objs[1..], o);
      if exists j :: 0 <= j < |objs| && EditableText(objs[j]) && o in CharOccurrences(objs[j].font.value, page, objs[j].chars) {
        var j :| 0 <= j < |objs| && EditableText(objs[j]) && o in CharOccurrences(objs[j].font.value, page, objs[j].chars);
        if j > 0 {
          assert objs[1..][j - 1] == objs[j];
        }
      }
      if o in ObjectOccurrences(page, objs[1..]) {
        var j :| 0 <= j < |objs[1..]| && EditableText(objs[1..][j]) && o in CharOccurrences(objs[1..][j].font.value, page, objs[1..][j].chars);
        assert objs[j + 1] == objs[1..][j];
      }
    }
  }

  lemma {:induction false} PageOccurrencesMember(doc: Document, p: nat, o: Occurrence)
    requires p <= |doc|
    ensures o in PageOccurrences(doc, p) <==>
            exists q :: p <= q < |doc| && Readable(doc, q) && o in ObjectOccurrences(q, doc[q].content.value)
    decreases |doc| - p
  {
    if p < |doc| {
      PageOccurrencesMember(doc, p + 1, o);
      var here := if Readable(doc, p) then ObjectOccurrences(p, doc[p].content.value) else [];
      var later := PageOccurrences(doc, p + 1);
      assert PageOccurrences(doc, p) == here + later;
      if o in here {
        assert Readable(doc, p) && o in ObjectOccurrences(p, doc[p].content.value);
      }
      if exists q :: p <= q < |doc| && Readable(doc, q) && o in ObjectOccurrences(q, doc[q].content.value) {
        var q :| p <= q < |doc| && Readable(doc, q) && o in ObjectOccurrences(q, doc[q].content.value);
        if q == p {
          assert o in here;
        } else {
          assert o in later;
        }
      }
    }
  }

  /**
   * A character becomes an occurrence exactly when its page and the page's
   * content were acquired, its object is a text object in an embedded font,
   * and the needs-OCR test flags its decoded text. Failed pages, contents and
   * objects, non-embedded or missing fonts and already mapped characters add
   * nothing; the scan goes on after them.
   */
  lemma OccurrenceIsFlaggedChar(doc: Document, o: Occurrence)
    ensures o in Occurrences(doc) <==>
            exists q, j, c :: Readable(doc, q) && 0 <= j < |doc[q].content.value|
                              && EditableText(doc[q].content.value[j])
                              && 0 <= c < |doc[q].content.value[j].chars|
                              && ShouldCharBeOcr(doc[q].content.value[j].chars[c].text) == Some(true)
                              && o == Occurrence(doc[q].content.value[j].font.value, doc[q].content.value[j].chars[c].code,
                                                 Location(q, doc[q].content.value[j].chars[c].bbox))
  {
    PageOccurrencesMember(doc, 0, o);
    forall q | Readable(doc, q)
      ensures o in ObjectOccurrences(q, doc[q].content.value) <==>
              exists j, c :: 0 <= j < |doc[q].content.value|
                             && EditableText(doc[q].content.value[j])
                             && 0 <= c < |doc[q].content.value[j].chars|
                             && ShouldCharBeOcr(doc[q].content.value[j].chars[c].text) == Some(true)
                             && o == Occurrence(doc[q].content.value[j].font.value, doc[q].content.value[j].chars[c].code,
                                                Location(q, doc[q].content.value[j].chars[c].bbox))
    {
      var objs := doc[q].content.value;
      ObjectOccurrencesMember(q, objs, o);
      forall j | 0 <= j < |objs| && EditableText(objs[j]) {
        CharOccurrencesMember(objs[j].font.value, q, objs[j].chars, o);
      }
    }
  }
}

=== FILE: scenarios.dfy ===
/**
 * Concrete runs of the model: the vote's tie-break, the OCR post-processing
 * on sample outputs, the dictionary-key collision, and a small document
 * resolved end to end.
 */
module Scenarios {
  import opened Wrappers
  import opened Geometry
  import opened MaxBy
  import opened Ocr
  import opened Glyphs
  import opened Scanner
  import opened HeightOrder
  import opened RenderCache
  import opened Resolver

  // ---------------------------------------------------------------------------
  // The vote

  /** A symbol recorded twice out of three wins. */
  lemma TwoOutOfThree()
    ensures Decide(["B", "A", "A"], " ") == "A"
  {
    var rs := ["B", "A", "A"];
    assert multiset(rs) == multiset{"B", "A", "A"};
    MajorityWins(rs, " ", "A");
  }

  // ---------------------------------------------------------------------------
  // Post-processing of engine output

  /** Tesseract keeps the first character left after trimming newlines, spaces included. */
  lemma TesseractKeepsFirstCharacter()
    ensures TesseractPost(Returned("\néx\n"), " ") == "é"
    ensures TesseractPost(Returned("\n\n"), " ") == ""
  {
    TesseractSymbolIsFirst("\néx\n", 1);
    assert AllNewlines("\n\n");
  }

  /** Rapid: among detections with equal scores the first wins; a malformed score falls back to the default. */
  lemma RapidPicksFirstBest()
    ensures RapidPost(Returned(Tuple([List([
              List([Scalar("box", None), Scalar("A", None), Scalar("0.9", Some(0.9))], "d1"),
              List([Scalar("box", None), Scalar("B", None), Scalar("0.9", Some(0.9))], "d2"),
              Scalar("noise", None)], "dets")], "result")), " ") == "A"
    ensures RapidPost(Returned(Tuple([List([
              List([Scalar("box", None), Scalar("A", None), Scalar("high", None)], "d1")], "dets")], "result")), " ") == " "
    ensures RapidPost(Returned(Tuple([], "()")), " ") == " "
    ensures RapidPost(Returned(Scalar("None", None)), " ") == " "
  {
    var d1 := List([Scalar("box", None), Scalar("A", None), Scalar("0.9", Some(0.9))], "d1");
    var d2 := List([Scalar("box", None), Scalar("B", None), Scalar("0.9", Some(0.9))], "d2");
    var ms := [d1, d2, Scalar("noise", None)];
    assert ListMembers(ms) == [d1.items, d2.items] by {
      assert ms[1..] == [d2, Scalar("noise", None)];
      assert ms[1..][1..] == [Scalar("noise", None)];
    }
    assert MemberCandidate(d1.items) == Some(Candidate("A", 0.9));
    assert MemberCandidate(d2.items) == Some(Candidate("B", 0.9));
    FirstOfEqualScores(ParseMembers(ms).value, Candidate("A", 0.9), Candidate("B", 0.9));

    var bad := [List([Scalar("box", None), Scalar("A", None), Scalar("high", None)], "d1")];
    assert ListMembers(bad) == [bad[0].items];
    assert MemberCandidate(ListMembers(bad)[0]).None?;
  }

  /** Of two candidates with the same score, the best is the first. */
  lemma FirstOfEqualScores(cs: seq<Candidate>, a: Candidate, b: Candidate)
    requires cs == [a, b] && a.score == b.score
    ensures cs[MaxIndex(cs, Score)] == a
  {
    assert IsFirstMax(cs, Score, 0);
    FirstMaxUnique(cs, Score, 0, MaxIndex(cs, Score));
  }

  /** Easy: the first detected string, whatever it is. */
  lemma EasyTakesFirstDetection()
    ensures EasyPost(Returned(["fi", "x"]), " ") == "fi"
    ensures EasyPost(Returned([]), " ") == " "
  {
  }

  // ---------------------------------------------------------------------------
  // The key collision

  const F1: Font := Font(1, "F1", true)
  const F12: Font := Font(2, "F12", true)
  const Box: BBox := BBox(0.0, 10.0, 5.0, 0.0)

  /** Font "F1" with code 23 and font "F12" with code 3 share the string key "F123". */
  lemma StringKeyCollides()
    ensures StringKey(F1, 23) == StringKey(F12, 3) == "F123"
    ensures !Injective(StringKey)
  {
    assert Decimal(23) == "23" by { assert Decimal(2) == "2"; }
    assert Decimal(3) == "3";
  }

  /** One page with one unmapped character in each of the two fonts. */
  function CollisionDoc(): Document {
    [Available(Some([TextObject(Some(F1), [CharInfo(23, "", Box)]),
                     TextObject(Some(F12), [CharInfo(3, "", Box)])]))]
  }

  /**
   * With the string key the two glyphs merge into one entry that carries
   * only the first font and code, so F12's code 3 is never assigned; with
   * the identity key they stay apart.
   */
  lemma CollisionMergesGlyphs()
    ensures Scan(CollisionDoc(), StringKey) == Some([Entry("F123", MissingGlyph(F1, 23, [Location(0, Box), Location(0, Box)]))])
    ensures Scan(CollisionDoc(), IdentityKey) == Some([Entry((F1, 23), MissingGlyph(F1, 23, [Location(0, Box)])),
                                                      Entry((F12, 3), MissingGlyph(F12, 3, [Location(0, Box)]))])
  {
    StringKeyCollides();
    var doc := CollisionDoc();
    var l := Location(0, Box);
    var o1 := Occurrence(F1, 23, l);
    var o2 := Occurrence(F12, 3, l);
    assert Occurrences(doc) == [o1, o2] by {
      assert ShouldCharBeOcr("") == Some(true);
      var objs := doc[0].content.value;
      assert CharOccurrences(F1, 0, objs[0].chars) == [o1] by { assert objs[0].chars[1..] == []; }
      assert CharOccurrences(F12, 0, objs[1].chars) == [o2] by { assert objs[1].chars[1..] == []; }
      assert objs[1..][0] == objs[1] && objs[1..][1..] == [];
      assert ObjectOccurrences(0, objs[1..]) == [o2];
      assert ObjectOccurrences(0, objs) == [o1, o2];
      assert PageOccurrences(doc, 1) == [];
    }
    assert !PagesRaise(doc, 0) by {
      assert !ObjectsRaise(doc[0].content.value);
    }
    ScanIsGroup(doc, StringKey);
    ScanIsGroup(doc, IdentityKey);
    assert [o1, o2][1..] == [o2] && [o2][1..] == [];
    var s1 := Record([], "F123", F1, 23, l);
    assert s1 == [Entry("F123", MissingGlyph(F1, 23, [l]))];
    assert s1[0].key == "F123" && s1[1..] == [];
    var e := s1[0].(glyph := s1[0].glyph.(locations := s1[0].glyph.locations + [l]));
    assert Record(s1, "F123", F12, 3, l) == [e] + s1[1..];
    assert s1[0].glyph.locations + [l] == [l, l];
    assert e == Entry("F123", MissingGlyph(F1, 23, [l, l]));
    assert Group([], StringKey, [o1, o2]) == Group(s1, StringKey, [o2]);
    assert Group(s1, StringKey, [o2]) == Group(Record(s1, "F123", F12, 3, l), StringKey, []);
    assert Scan(doc, StringKey) == Some(Group([], StringKey, [o1, o2]));
    assert [e] + s1[1..] == [e];
    var i1 := Record([], (F1, 23), F1, 23, l);
    assert i1 == [Entry((F1, 23), MissingGlyph(F1, 23, [l]))];
    assert i1[1..] == [];
    assert i1[0].key != (F12, 3);
    var i2 := Record(i1, (F12, 3), F12, 3, l);
    assert i2 == [i1[0]] + Record([], (F12, 3), F12, 3, l);
    assert i2 == [Entry((F1, 23), MissingGlyph(F1, 23, [l])), Entry((F12, 3), MissingGlyph(F12, 3, [l]))];
    assert Group([], IdentityKey, [o1, o2]) == Group(i1, IdentityKey, [o2]);
    assert Group(i1, IdentityKey, [o2]) == Group(i2, IdentityKey, []);
    assert Scan(doc, IdentityKey) == Some(Group([], IdentityKey, [o1, o2]));
  }

  /** The two flagged characters of the collision document, in order. */
  lemma CollisionOccurrences(doc: Document)
    requires doc == CollisionDoc()  // a parameter, so the verifier expands the literal only where a proof needs it
    ensures Occurrences(doc) == [Occurrence(F1, 23, Location(0, Box)), Occurrence(F12, 3, Location(0, Box))]
    ensures !PagesRaise(doc, 0)
  {
    var o1 := Occurrence(F1, 23, Location(0, Box));
    var o2 := Occurrence(F12, 3, Location(0, Box));
    assert ShouldCharBeOcr("") == Some(true);
    var objs := doc[0].content.value;
    assert CharOccurrences(F1, 0, objs[0].chars) == [o1] by { assert objs[0].chars[1..] == []; }
    assert CharOccurrences(F12, 0, objs[1].chars) == [o2] by { assert objs[1].chars[1..] == []; }
    assert objs[1..][0] == objs[1] && objs[1..][1..] == [];
    assert ObjectOccurrences(0, objs[1..]) == [o2];
    assert ObjectOccurrences(0, objs) == [o1, o2];
    assert PageOccurrences(doc, 1) == [];
    assert !ObjectsRaise(objs);
  }

  /** F12's code 3 is among the flagged characters of the collision document. */
  lemma CollisionF12Flagged(doc: Document)
    requires doc == CollisionDoc()  // a parameter, so the verifier expands the literal only where a proof needs it
    ensures OfGlyph(Occurrences(doc), F12, 3) != []
  {
    CollisionOccurrences(doc);
    var o2 := Occurrence(F12, 3, Location(0, Box));
    var occs := Occurrences(doc);
    assert occs[1..] == [o2] && [o2][1..] == [];
    assert o2 in OfGlyph(occs, F12, 3);
  }

  /**
   * Run with the string key, the collision document gets one assignment,
   * for F1's code 23; F12's code 3 is flagged but never assigned. With an
   * injective key it is (`Resolver.InjectiveKeyAssignsEveryGlyph`).
   */
  lemma CollisionLeavesGlyphUnassigned(doc: Document, env: Env)
    requires doc == CollisionDoc()  // a parameter, so the verifier expands the literal only where a proof needs it
    ensures OfGlyph(Occurrences(doc), F12, 3) != []
    ensures Run(doc, StringKey, env).Some?
    ensures var a := Run(doc, StringKey, env).value.assignments;
            |a| == 1 && a[0].font == F1 && a[0].code == 23
    ensures var a := Run(doc, StringKey, env).value.assignments;
            forall i :: 0 <= i < |a| ==> !(a[i].font == F12 && a[i].code == 3)
  {
    CollisionF12Flagged(doc);
    var g := MissingGlyph(F1, 23, [Location(0, Box), Location(0, Box)]);
    CollisionMergesGlyphs();
    var resolved := ResolveAll([Entry("F123", g)], Empty, env);
    assert resolved.0[0] == Written(g, env);
  }

  // ---------------------------------------------------------------------------
  // A document resolved end to end

  const F: Font := Font(7, "Embedded", true)
  const Short: BBox := BBox(0.0, 10.0, 4.0, 0.0)
  const Tall: BBox := BBox(0.0, 20.0, 8.0, 0.0)

  /** Code 65 without a Unicode mapping: on page 0 ten units high, on page 1 twenty. */
  function TwoPageDoc(): Document {
    [Available(Some([TextObject(Some(F), [CharInfo(65, "", Short)])])),
     Available(Some([OtherObject, TextObject(Some(F), [CharInfo(65, "\U{FEFF}", Tall)])]))]
  }

  /** The glyph's two occurrences, in page order; no decoded text is too long for `ord`. */
  lemma TwoPageOccurrences()
    ensures Occurrences(TwoPageDoc()) == [Occurrence(F, 65, Location(0, Short)), Occurrence(F, 65, Location(1, Tall))]
    ensures !PagesRaise(TwoPageDoc(), 0)
  {
    var doc := TwoPageDoc();
    var o1 := Occurrence(F, 65, Location(0, Short));
    var o2 := Occurrence(F, 65, Location(1, Tall));
    assert ShouldCharBeOcr("") == Some(true);
    assert ShouldCharBeOcr("\U{FEFF}") == Some(true);
    var objs0 := doc[0].content.value;
    assert CharOccurrences(F, 0, objs0[0].chars) == [o1] by { assert objs0[0].chars[1..] == []; }
    assert objs0[1..] == [];
    assert ObjectOccurrences(0, objs0) == [o1];
    var objs1 := doc[1].content.value;
    assert CharOccurrences(F, 1, objs1[1].chars) == [o2] by { assert objs1[1].chars[1..] == []; }
    assert objs1[1..][0] == objs1[1] && objs1[1..][1..] == [];
    assert ObjectOccurrences(1, objs1[1..]) == [o2];
    assert ObjectOccurrences(1, objs1) == [o2];
    assert PageOccurrences(doc, 2) == [];
    assert PageOccurrences(doc, 1) == [o2];
    assert !ObjectsRaise(objs0);
    assert !ObjectsRaise(objs1);
  }

  /** The taller location is sorted in front of the shorter one found first. */
  lemma TwoPageSample()
    ensures Sample([Location(0, Short), Location(1, Tall)]) == [Location(1, Tall), Location(0, Short)]
  {
    assert LocationHeight(Location(0, Short)) < LocationHeight(Location(1, Tall));
    SampleOfTwo(Location(0, Short), Location(1, Tall));
  }

  /** Of two locations, the taller one is examined first. */
  lemma SampleOfTwo(a: Location, b: Location)
    requires LocationHeight(a) < LocationHeight(b)
    ensures Sample([a, b]) == [b, a]
  {
    assert [a, b][1..] == [b] && [b][1..] == [];
    assert SortByHeight([b]) == Insert(b, []) == [b];
    assert Insert(a, [b]) == [b] + Insert(a, []);
    assert SortByHeight([a, b]) == [b, a];
  }

  /**
   * Whatever the key function, the dictionary holds one entry for code 65,
   * with both locations in discovery order: both occurrences are of the same
   * font and code, so any key files them together.
   */
  lemma TwoPageTable<K>(keyOf: (Font, nat) -> K)
    ensures Group([], keyOf, Occurrences(TwoPageDoc()))
         == [Entry(keyOf(F, 65), MissingGlyph(F, 65, [Location(0, Short), Location(1, Tall)]))]
  {
    var short := Location(0, Short);
    var tall := Location(1, Tall);
    var o1 := Occurrence(F, 65, short);
    var o2 := Occurrence(F, 65, tall);
    TwoPageOccurrences();
    var k := keyOf(F, 65);
    var t1 := Record([], k, F, 65, short);
    assert t1 == [Entry(k, MissingGlyph(F, 65, [short]))];
    assert t1[0].key == k && t1[1..] == [];
    var e := t1[0].(glyph := t1[0].glyph.(locations := t1[0].glyph.locations + [tall]));
    assert Record(t1, k, F, 65, tall) == [e] + t1[1..];
    assert t1[0].glyph.locations + [tall] == [short, tall];
    assert [o1, o2][1..] == [o2] && [o2][1..] == [];
    assert Group([], keyOf, [o1, o2]) == Group(t1, keyOf, [o2]);
  }

  /**
   * A Tesseract configuration that reads "x" on every crop of page 1 and "y"
   * on every crop of page 0, where every page is acquirable and every
   * assignment accepted.
   */
  ghost predicate ReadsXOnPageOne(env: Env) {
    && env.engine == TesseractOcr
    && (forall p :: env.acquire(p))
    && (forall b :: env.tile(1, b).tesseract == Returned("x\n"))
    && (forall b :: env.tile(0, b).tesseract == Returned("y\n"))
    && (forall f, c, s :: env.setUnicode(f, c, s))
  }

  /** The taller location, examined first, reads "x" and wins the tie against the shorter one's "y". */
  lemma TwoPageResolution(g: MissingGlyph, env: Env)
    requires g.locations == [Location(0, Short), Location(1, Tall)]
    requires ReadsXOnPageOne(env)
    ensures Resolution(g, env) == "x"
  {
    TwoPageSample();
    TwoPageReadings(env);
    TieGoesToFirstSeenOf("x", "y");
  }

  /** Examined tallest first, the two locations record "x" and then "y". */
  lemma TwoPageReadings(env: Env)
    requires ReadsXOnPageOne(env)
    ensures Results([Location(1, Tall), Location(0, Short)], env) == ["x", "y"]
  {
    var tall := Location(1, Tall);
    var short := Location(0, Short);
    StubLines();
    assert OcrAt(tall, env) == Some("x") by {
      assert env.tile(1, Expand(Tall, CropMargin)).tesseract == Returned("x\n");
    }
    assert OcrAt(short, env) == Some("y") by {
      assert env.tile(0, Expand(Short, CropMargin)).tesseract == Returned("y\n");
    }
    ResultsCons([tall, short], env);
    assert [tall, short][1..] == [short];
    ResultsOfOne(tall, env);
    ResultsOfOne(short, env);
  }

  /** Both pages are acquirable, so both sampled locations' pages are rendered. */
  lemma TwoPageAcquired(g: MissingGlyph, env: Env, p: nat)
    requires g.locations == [Location(0, Short), Location(1, Tall)]
    requires forall p :: env.acquire(p)
    ensures p in AcquiredPages(Sample(g.locations), env) <==> p == 0 || p == 1
  {
    TwoPageSample();
    assert Location(0, Short) in [Location(1, Tall), Location(0, Short)];
  }

  /** Tesseract's output lines lose their newline. */
  lemma StubLines()
    ensures TesseractSymbol("x\n") == "x" && TesseractSymbol("y\n") == "y"
  {
    TesseractSymbolIsFirst("x\n", 0);
    TesseractSymbolIsFirst("y\n", 0);
  }

  /** The scan finds code 65 once, with both locations. */
  lemma TwoPageScan<K>(doc: Document, keyOf: (Font, nat) -> K)
    requires doc == TwoPageDoc()  // a parameter, so the verifier expands the literal only where a proof needs it
    ensures Scan(doc, keyOf) == Some([Entry(keyOf(F, 65), MissingGlyph(F, 65, [Location(0, Short), Location(1, Tall)]))])
  {
    TwoPageOccurrences();
    TwoPageTable(keyOf);
    ScanIsGroup(doc, keyOf);
  }

  /**
   * The two readings tie at one vote each and the taller location, examined
   * first, decides: code 65 becomes "x"; both pages are rendered, and only
   * they. This holds for every key function, the program's `StringKey`
   * included, since the document has a single font.
   */
  lemma TallestLocationBreaksTie<K>(doc: Document, keyOf: (Font, nat) -> K, env: Env)
    requires doc == TwoPageDoc()  // a parameter, so the verifier expands the literal only where a proof needs it
    requires ReadsXOnPageOne(env)
    ensures Run(doc, keyOf, env).Some?
    ensures Run(doc, keyOf, env).value.assignments == [Assignment(F, 65, "x", true)]
    ensures forall p :: p in Run(doc, keyOf, env).value.rendered <==> p == 0 || p == 1
  {
    var g := MissingGlyph(F, 65, [Location(0, Short), Location(1, Tall)]);
    TwoPageScan(doc, keyOf);
    TwoPageOutcome(keyOf(F, 65), g, env);
  }

  /** The same run with the program's own key. */
  lemma TallestLocationBreaksTieWithStringKey(doc: Document, env: Env)
    requires doc == TwoPageDoc()  // a parameter, so the verifier expands the literal only where a proof needs it
    requires ReadsXOnPageOne(env)
    ensures Run(doc, StringKey, env).Some?
    ensures Run(doc, StringKey, env).value.assignments == [Assignment(F, 65, "x", true)]
  {
    TallestLocationBreaksTie(doc, StringKey, env);
  }

  /** Resolving the scanned entry: one accepted assignment of "x", pages 0 and 1 rendered. */
  lemma TwoPageOutcome<K>(k: K, g: MissingGlyph, env: Env)
    requires g == MissingGlyph(F, 65, [Location(0, Short), Location(1, Tall)])
    requires ReadsXOnPageOne(env)
    ensures ResolveAll([Entry(k, g)], Empty, env).0 == [Assignment(F, 65, "x", true)]
    ensures forall p :: p in Pages(ResolveAll([Entry(k, g)], Empty, env).1) <==> p == 0 || p == 1
  {
    var resolved := ResolveAll([Entry(k, g)], Empty, env);
    TwoPageResolution(g, env);
    assert resolved.0[0] == Written(g, env);
    forall p ensures p in Pages(resolved.1) <==> p == 0 || p == 1 {
      TwoPageRenders(k, g, env, p);
    }
  }

  lemma TwoPageRenders<K>(k: K, g: MissingGlyph, env: Env, p: nat)
    requires g.locations == [Location(0, Short), Location(1, Tall)]
    requires forall p :: env.acquire(p)
    ensures p in Pages(ResolveAll([Entry(k, g)], Empty, env).1) <==> p == 0 || p == 1
  {
    RendersOfSingleEntry(k, g, env, p);
    TwoPageAcquired(g, env, p);
  }

  /** A one-entry table renders exactly the pages its sample needs. */
  lemma RendersOfSingleEntry<K>(k: K, g: MissingGlyph, env: Env, p: nat)
    ensures p in Pages(ResolveAll([Entry(k, g)], Empty, env).1) <==> p in AcquiredPages(Sample(g.locations), env)
  {
    var t := [Entry(k, g)];
    ResolveAllRenders(t, Empty, env, p);
    assert |Pages(Empty)| == 0;
    assert NeededPage(t, env, p) <==> p in AcquiredPages(Sample(g.locations), env) by {
      if p in AcquiredPages(Sample(g.locations), env) {
        assert t[0].glyph == g;
      }
    }
  }

  /** Any two distinct symbols recorded once each: the first one wins. */
  lemma TieGoesToFirstSeenOf(a: string, b: string)
    requires a != b
    ensures Decide([a, b], " ") == a
  {
    var rs := [a, b];
    assert multiset(rs) == multiset{a, b};
    assert Count(rs, a) == 1 && Count(rs, b) == 1;
    assert IsFirstMax(rs, Votes(rs), 0);
    FirstMaxUnique(rs, Votes(rs), 0, MaxIndex(rs, Votes(rs)));
  }

  // ---------------------------------------------------------------------------
  // Fallbacks

  /** Five tall locations on pages 0 to 4 and a short one on page 5, discovered last. */
  function SixLocations(): seq<Location> {
    [Location(0, Tall), Location(1, Tall), Location(2, Tall), Location(3, Tall), Location(4, Tall), Location(5, Short)]
  }

  /** The five tall locations fill the sample, in discovery order. */
  lemma SixLocationsSample()
    ensures Sample(SixLocations()) == SixLocations()[..5]
  {
    var s := SixLocations();
    assert TallestFirst(s) by {
      forall i, j | 0 <= i < j < |s| ensures LocationHeight(s[i]) >= LocationHeight(s[j]) {
        assert LocationHeight(s[i]) == 20.0;
      }
    }
    SortKeepsOrdered(s);
  }

  /** The first five locations are on pages 0 to 4. */
  lemma FirstFivePages()
    ensures forall l :: l in SixLocations()[..5] ==> l.page < 5
  {
    assert SixLocations()[..5] == [Location(0, Tall), Location(1, Tall), Location(2, Tall), Location(3, Tall), Location(4, Tall)];
  }

  /**
   * Only the short location's page can be acquired, and it is left out of
   * the five sampled: the glyph gets the default although that page would
   * have been read.
   */
  lemma ShortestLocationLeftOut(g: MissingGlyph, env: Env)
    requires g.locations == SixLocations()
    requires forall p :: env.acquire(p) <==> p == 5
    ensures Resolution(g, env) == env.defaultChar
  {
    SixLocationsSample();
    FirstFivePages();
    UnacquiredSamplesFallBack(g, env);
  }
}

=== FILE: wrappers.dfy ===
/** Failure-carrying wrapper shared by the whole model. */
module Wrappers {

  /** `None` stands for Python's `None`, or for an exception that ended the computation. */
  datatype Option<+T> = None | Some(value: T)
}
